=== FILE: README.md ===
# Moogsoft reporting core, modelled in Dafny

This project models the aggregation and correlation core of a daily
Moogsoft reporting job. The job pulls alerts, incidents, maintenance
windows, integration listings, integration error logs, audit counts and
catalogue metadata from the Moogsoft API. It reduces each of them to the
counts and lists that go into the report.

Each module follows one source file:

| module | models |
|---|---|
| `Values` | Python values as JSON gives them (`None`, strings, ints, bools, anything else with its truthiness); `or`, `.get`, `strip()`, `in` on strings, `str()`; the blank-value rule |
| `Fetch` | single-shot replies with a `status` field; the cursor (`search_after`) pagination of the alert and incident searches; the offset pagination of the maintenance alert search; the 24-hour threshold |
| `Tally` | sums over the values of a map; `list(set)` |
| `Ranking` | `list.sort(key=…, reverse=True)` followed by `[:n]` |
| `Incidents` | `aggregate_incidents` (`Incidents.Summarize`, apis/incidents.py:85-187): global and per-manager ticket counters, the Dynatrace and Splunk workload lists, the unmapped breakdown |
| `Alerts` | `aggregate_alerts` (`Alerts.Summarize`, apis/alerts.py:66-88): per-manager alert/event counters and the Nagios instance breakdown |
| `Maintenance` | `get_report_section`: the merged window lookup (`Maintenance.Merged`, apis/maintenance.py:79-90), alert enrichment (`Maintenance.Enrich`, apis/maintenance.py:96-117), monthly counts (`Maintenance.CountMonths`, apis/maintenance.py:93-102), the ten newest alerts (`Maintenance.Newest`, apis/maintenance.py:136-139) |
| `Probes` | what the two error correlators share: one error-log reply per integration, flattened into the entries the nested loops visit, and the loop that splits them into recent and older buckets |
| `InboundErrors` | `fetch_inbound_errors` (`InboundErrors.Correlate`, apis/inbound_errors.py:30-69): recent (count + distinct reasons) and older (count) buckets per integration name |
| `OutboundErrors` | `fetch_outbound_errors` (`OutboundErrors.Correlate`, apis/outbound_errors.py:31-68): the same with the list of messages, duplicates kept |
| `Integrations` | the id deduplication shared by both integration listings |
| `InboundIntegrations` | `fetch_inbound_integrations` over its four endpoints |
| `OutboundIntegrations` | `fetch_outbound_integrations` |
| `Audits` | `fetch_audit_counts` over its fixed service list (`Audits.AuditCounts`, apis/audits.py:34-59) |
| `Catalogs` | `fetch_recent_catalog_updates`: the newest catalogues and the sync status |

The network is not modelled; its effects are inputs:

- A single-shot request is a `Fetch.Reply`: either `Failure` (the request raised) or a status with a payload.
- A paginated search is the finite sequence of pages or replies that its successive requests receive.
- A per-URL or per-service request is a function from the URL or service name to its reply.
- The current time (`epoch_now`) is a parameter.
- The month name of a timestamp is an uninterpreted function parameter.

Every summariser is written the way the source writes it: a left fold over its input, with one step per loop iteration. Each fold is related, by lemmas, to an independent reference definition stated record by record. For example, "the counters of manager *k* are the contributions of *k*'s records" and "the per-manager alert counts add up to the number of alerts".

Three behaviours of the code are worth stating outright, since they are easy to misread:

- The maintenance merge lets a later truthy field win, so an expired occurrence overrides the active window (`Maintenance.ExpiredWins`, `Maintenance.MergeNotCommutative`).
- Outbound messages are appended to a list, duplicates kept (`OutboundErrors.DuplicatesKept`).
- The alert summariser defaults a missing manager with `.get("manager", "Unknown")`. A `null` manager therefore keeps its own bucket, unlike the incident summariser's `or "Unknown"` (`Alerts.UnknownOnlyWhenAbsent`).

## Model

| member | source | states |
|---|---|---|
| Values.StripSpec | apis/incidents.py:117-118 | `strip()` removes exactly a run of leading and a run of trailing whitespace; the result neither starts nor ends with whitespace |
| Values.BlankIsStripEmpty | apis/incidents.py:117-118 | a value is blank exactly when it is `None` or a string that `strip()` leaves empty |
| Values.BlankIsNotFalsy | apis/incidents.py:117-118 | blank differs from falsy: `"0"`, `0` and `False` are not blank; `None`, `""` and `"   "` are, the last although truthy |
| Values.ContainsAt | apis/incidents.py:181 | the `in` test on strings holds exactly when the pattern occurs at some offset |
| Fetch.FetchSince | apis/incidents.py:59-76 | the search-after loop raises exactly when a requested page is broken; otherwise it returns the records of every page up to and including the first empty page or page without a truthy cursor |
| Fetch.SinglePageWithoutCursor | apis/alerts.py:38-55 | a first page with records and no cursor is the only page fetched |
| Fetch.FetchByOffset | apis/maintenance.py:31-61 | the offset loop requests starts 0, 5000, 10000, …; it stops at the first reply that is not full; it raises on a failed request or a status other than "success"; otherwise it returns every payload in order |
| Tally.SetToList | apis/incidents.py:184-185 | `list(set)` lists every element exactly once, with as many entries as the set has elements |
| Ranking.SortDesc | apis/catalogs.py:50 | the newest-first sort returns a permutation of its input |
| Ranking.SortDescDescending | apis/maintenance.py:136-137 | the sorted list has non-increasing keys |
| Ranking.SortDescStable | apis/catalogs.py:50 | the sort is stable: the elements sharing a key come out in their input order |
| Ranking.Prefix | apis/catalogs.py:57 | `xs[:n]` is a prefix of `xs`, of length `min(n, len(xs))`, counting from the end for negative `n` |
| Ranking.TopAreLargest | apis/maintenance.py:139 | the first `n` of the sorted list are in descending order and drawn from the input, and no element left out has a larger key than one kept |
| Incidents.FetchIncidentsSince | apis/incidents.py:59-76 | the incident search raises exactly when a requested page is broken; otherwise it returns the records of the pages up to the stopping page |
| Incidents.Contribution | apis/incidents.py:128-144 | each incident adds exactly 1 to the total and exactly one of created/not-created; created, creation error, upgraded and auto-resolved are each set exactly when their tag test holds |
| Incidents.GlobalCounters | apis/incidents.py:110-144 | the global counters are the sum of every incident's contribution; the total is the number of incidents; created + not-created equals it |
| Incidents.PerManager | apis/incidents.py:113-165 | a manager (a falsy or missing one read as "Unknown") has a bucket exactly when one of its incidents is present; the bucket is the sum of that manager's incidents' contributions only |
| Incidents.PerManagerAddsUp | apis/incidents.py:146-165 | for every counter, the per-manager values add up to the global value |
| Incidents.WorkloadLists | apis/incidents.py:167-182 | each workload list holds, in input order, the Workload of exactly the incidents matching its scan (manager "Dynatrace" by equality or containing "Splunk", `cmdb_ci` blank, Workload not blank) |
| Incidents.UnmappedBreakdown | apis/incidents.py:171-178 | the unmapped count is the number of incidents with `cmdb_ci` and Workload both blank; the count equals those without a source plus those with one; the source set is exactly their non-blank sources |
| Incidents.SplunkIsSubstringMatch | apis/incidents.py:167-182 | "My-Splunk-2" matches the Splunk scan by substring; "Dynatrace EU" does not match the Dynatrace scan |
| Incidents.Publish | apis/incidents.py:184-206 | the published summary keeps every counter and list and lists the source set once each |
| Incidents.AggregateIncidents | apis/incidents.py:78-83 | the aggregation raises exactly when either window's fetch raises; otherwise each window is summarised from its own fetched list |
| Alerts.FetchAlertsSince | apis/alerts.py:38-55 | the alert search raises exactly when a requested page is broken; otherwise it returns the records of the pages up to the stopping page |
| Alerts.PerManager | apis/alerts.py:70-81 | a manager (only an absent key read as "Unknown") has a bucket exactly when one of its alerts is present; the bucket counts its alerts, sums their event counts, and sums the event counts of those without incidents |
| Alerts.ManagersAddUp | apis/alerts.py:76-81 | across managers, `alerts` adds up to the number of alerts; `events` and `no_incident_events` add up to the same sums over the whole list |
| Alerts.QuietWithinEvents | apis/alerts.py:79-81 | with non-negative event counts, a manager's `no_incident_events` lies between 0 and its `events` |
| Alerts.UnknownOnlyWhenAbsent | apis/alerts.py:71 | an absent manager is bucketed as "Unknown"; a `null` manager keeps a bucket of its own |
| Alerts.NagiosBreakdown | apis/alerts.py:83-86 | the breakdown has a key exactly for each `instance` tag of a "Nagios" alert; each key holds the sum of that instance's event counts |
| Alerts.NagiosIgnoresOthers | apis/alerts.py:83-86 | removing every alert that is not a Nagios alert with an instance tag leaves the breakdown unchanged |
| Alerts.ThreeAlerts | apis/alerts.py:66-88 | two Nagios "host1" alerts (5 events without incidents, 2 with one) and one Dynatrace alert (1 event) give Nagios {2, 7, 5}, Dynatrace {1, 1, 1} and host1 ↦ 7 |
| Alerts.AggregateAlerts | apis/alerts.py:57-64 | the aggregation raises exactly when either window's fetch raises; otherwise each window is summarised from its own fetched list |
| Maintenance.LookupKeys | apis/maintenance.py:79-83 | the lookup has a key exactly for each truthy id among the active and expired records |
| Maintenance.LookupFields | apis/maintenance.py:83-90 | each field of an entry is the last truthy value that field takes among its id's records, else the placeholder ("(no name)", "(no description)", or `None`) |
| Maintenance.EntriesNamed | apis/maintenance.py:85-86 | every entry has a truthy name and description |
| Maintenance.UnnamedFieldsMayBeNull | apis/maintenance.py:87-89 | status, start and duration are the last truthy value of the field, or `None` when there is none |
| Maintenance.ExpiredWins | apis/maintenance.py:79 | for a field an expired occurrence sets, the expired value overrides the active window's |
| Maintenance.MergeNotCommutative | apis/maintenance.py:84-86 | merging two records with different names keeps the later name, so the merge depends on order |
| Maintenance.CoalesceExample | apis/maintenance.py:84-90 | `{id 1, name "A"}` then `{id 1, status "active"}` give the entry ("A", "(no description)", "active", None, None) |
| Maintenance.EnrichAll | apis/maintenance.py:96-117 | one enriched line per alert, in order, each enriching its own alert |
| Maintenance.EnrichDefaults | apis/maintenance.py:104-115 | an alert whose stringified maintenance id is missing from the lookup gets "(unknown)", "" and no status; otherwise it gets its entry's merged name, description and status |
| Maintenance.EnrichedNamed | apis/maintenance.py:104-115 | every enriched line has a truthy maintenance name |
| Maintenance.IntegerIdsNeverMatch | apis/maintenance.py:79-105 | the lookup is keyed by raw id and probed with `str(id)`, so when every window id is an integer no alert is matched |
| Maintenance.MonthlyCounts | apis/maintenance.py:96-102 | a (month, manager) cell exists exactly when some alert falls in it; it counts those alerts; the cells add up to the number of alerts |
| Maintenance.WithDate | apis/maintenance.py:136 | the kept lines all have a creation date and are drawn from the enriched list |
| Maintenance.WithDateKeepsDated | apis/maintenance.py:136 | the filter keeps every dated line with its multiplicity, and no undated line |
| Maintenance.NewestTen | apis/maintenance.py:136-139 | the detail lines are ten dated alerts from the enriched list, or all of them when fewer are dated, newest first, and no dated alert left out is newer than one kept |
| Maintenance.ReportSection | apis/maintenance.py:73-149 | apart from the report-text failures listed under Left out, the section fails exactly when a window fetch raises or the alert fetch fails; otherwise it holds the merged lookup, the enriched alerts, the month counts and the ten newest lines |
| Probes.Trichotomy | apis/inbound_errors.py:53-64 | an entry is recent, older, or (without a timestamp) neither, never both |
| Probes.InclusiveBoundary | apis/inbound_errors.py:53-64 | an entry exactly 24 hours old is recent; one a millisecond older is older |
| Probes.FailedProbeSkipped | apis/inbound_errors.py:36-45 | an integration whose request raised or whose status is not "success" contributes no entries, and the integrations after it are still visited |
| Probes.ObservationsFrom | apis/inbound_errors.py:30-49 | every entry visited comes from a successful integration's data, under that integration's name |
| Probes.SplitRecent | apis/inbound_errors.py:56-63 | a name has a recent bucket exactly when it has an entry at or after the threshold; the bucket is those entries' payloads noted one by one, in order, from the empty bucket |
| Probes.SplitOlder | apis/inbound_errors.py:64-69 | a name has an older bucket exactly when it has a timestamped entry before the threshold; the bucket counts them |
| Probes.SplitSkipsFailure | apis/inbound_errors.py:36-45 | a failing integration leaves both bucket maps as if it were absent |
| InboundErrors.NoteAllReasons | apis/inbound_errors.py:62-63 | noting entries one by one adds their number to the count and every reason they give to the set |
| InboundErrors.RecentBuckets | apis/inbound_errors.py:56-63 | a name has a recent bucket exactly when it has a recent entry; the bucket counts those entries and holds exactly the reasons they give |
| InboundErrors.CountsAddUp | apis/inbound_errors.py:49-69 | recent and older counts add up to the number of timestamped entries of successful integrations |
| InboundErrors.ListReasons | apis/inbound_errors.py:72-73 | each bucket's reason set becomes a list of the same reasons without repetition, counts unchanged |
| InboundErrors.FetchInboundErrors | apis/inbound_errors.py:26-78 | the report's older buckets and recent keys are those of the correlation; each recent bucket has its entry count and a repetition-free list of exactly its reasons |
| OutboundErrors.NoteAllMessages | apis/outbound_errors.py:55-62 | noting entries one by one adds their number to the count and appends their messages in order |
| OutboundErrors.RecentBuckets | apis/outbound_errors.py:55-62 | a name has a recent bucket exactly when it has a recent entry; the bucket lists their messages in order ("No message" when absent), and its count is their number |
| OutboundErrors.DuplicatesKept | apis/outbound_errors.py:48-62 | two recent entries with the same message keep both copies, and an entry without a message reads "No message" |
| Integrations.Dedup | apis/inbound_integrations.py:43-50 | the listing has each truthy id exactly once, from its first item, in order of first appearance, and no other id |
| InboundIntegrations.FailedUrlSkipped | apis/inbound_integrations.py:30-41 | an endpoint whose request raised or whose status is not "success" is skipped, and later endpoints are still read |
| InboundIntegrations.FetchInboundIntegrations | apis/inbound_integrations.py:27-55 | the result deduplicates the items of all four endpoints in order, and `total` is the number of integrations listed |
| OutboundIntegrations.FetchOutboundIntegrations | apis/outbound_integrations.py:22-51 | a failed request or non-success status gives total 0 and no integrations; otherwise the items are deduplicated, and `total` is the number listed |
| Audits.EveryServiceCounted | apis/audits.py:5-57 | the result has exactly the eleven services as keys, each holding its own reply's count |
| Audits.FailureIsolated | apis/audits.py:34-57 | a service's value depends on its own reply only |
| Audits.AllFailing | apis/audits.py:34-57 | when every query fails, all eleven services are still present, each with 0 |
| Catalogs.Top | apis/catalogs.py:50-57 | `catalogs[:limit]` after the sort has `min(limit, len)` catalogues for a non-negative limit, each drawn from the reply |
| Catalogs.ZeroLimitSucceeds | apis/catalogs.py:53-73 | with a limit of 0 nothing is selected and the loop never clears the success flag |
| Catalogs.FetchRecentCatalogUpdates | apis/catalogs.py:33-73 | a failed request, a non-success status or an empty list gives no catalogues and "Failed"; otherwise it lists the newest `limit` catalogues in order and reports "Success" exactly when all of them are within 24 hours |
| Catalogs.OldestDecides | apis/catalogs.py:50-68 | since the selection is newest first, it is all fresh exactly when its last catalogue is |
| Catalogs.LeftOutAreOlder | apis/catalogs.py:50-57 | no catalogue left out by the limit is newer than one selected |
| Catalogs.UniformCatalogues | apis/catalogs.py:54-68 | all catalogues fresh gives success; all stale with at least one selected gives failure |

## Left out

- HTTP requests, headers, timeouts, JSON decoding and `print` logging: a request is represented by its outcome.
- A reply body that decodes to something other than a JSON object (`null`, a list, a string) is not represented: `Fetch.Reply` is either a failure or a status with its data. In the source, `data.get("status")` then raises outside the `try` and aborts the whole call, not only the one integration or URL, at apis/inbound_errors.py:44, apis/outbound_errors.py:43, apis/inbound_integrations.py:39, apis/outbound_integrations.py:30 and apis/catalogs.py:41 (only apis/audits.py:49 is inside its `try`). The failure-isolation lemmas (`Probes.FailedProbeSkipped`, `Probes.SplitSkipsFailure`, `InboundIntegrations.FailedUrlSkipped`) hold for the replies the model admits.
- The query payloads (filters, field lists, time-range parameters) only shape what the server returns and are not modelled.
- Date formatting (`epoch_to_moogsoft_format`, `month_year_str`, `strftime` in IST, `month_sort_key`) is not modelled. The month name is an uninterpreted function, and the catalogue's `last_updated` is listed as the raw epoch.
- The report text of the maintenance section is not modelled: its line layout, the month ordering and the per-month manager ordering. Sorting managers of mixed types would raise there; the model keeps the counts and the ten newest entries.
- The maintenance `created_dt` is a fixed shift of the epoch, so it orders alerts exactly as the epoch does. Float timestamps and a date overflow that raises in `utcfromtimestamp` are not modelled.
- The catalogue `datetime.fromtimestamp` can raise outside the `try` for out-of-range stamps; this is not modelled. Stamps are integers in the model; a non-integer `last_updated` (a float, a bool, a string) is not modelled.
- Python dynamic typing beyond the value kinds modelled is not covered:
  - a non-integer `event_count`;
  - a `tags` that is not a mapping;
  - a record that is not a mapping;
  - hashing `1` and `True` to the same key;
  - unhashable values (lists, objects) used as a dict key or set member: integration and maintenance ids, managers, integration names, Nagios instances, sources, reasons. Python raises `TypeError` outside any `try`; the model files such a value under its own key;
  - a non-string manager tested with `in`;
  - an inbound entry's `errors` that is not a list (apis/inbound_errors.py:51-63): a `null` or non-iterable value makes `set.update` raise outside the `try`, a string adds its characters and a dict its keys to the reasons; the model gives every entry a list of reasons;
  - an error-log reply whose `data` is not a list (apis/inbound_errors.py:47-50, apis/outbound_errors.py:46-49): `null` raises in the loop header, a non-empty string or dict raises on `.get`, and an empty one iterates nothing; the model gives every reply a list of entries.
- Ranking.SortDesc: stated as a stable descending permutation (`Ranking.SortDescStable`), matching Python's stable `sort(reverse=True)`; that these three facts determine the result uniquely is not proved.
- Fetch.FetchSince: a search is given as a finite script of pages; a request past its end receives an empty page. A server that pages forever is not represented.
- statistics.py, email_report.py and main.py (the report composition, rendering and mail delivery) are not part of this model.
- The error correlators' nested loops over integrations and entries are modelled as one loop over the flattened entries (`Probes.Observations`). Lookups of the `id` and `name` keys that raise on a malformed integration are not modelled.
- The default `limit` of 5 of `fetch_recent_catalog_updates` is not a default in the model: `Catalogs.FetchRecentCatalogUpdates` takes the limit as a parameter, and a caller relying on the default passes 5.
- Audits: the request's time range is not modelled, since it is only passed on to the server.

=== FILE: alerts.dfy ===
/** The alert summariser: one forward pass over the alerts of a window,
    counting alerts, events and events never escalated to an incident per
    manager, with a per-instance breakdown of the Nagios events. */
module Alerts {
  import opened Values
  import opened Tally
  import Fetch

  /** An alert as fetched. The three optional fields are `None` when the key
      is absent from the record (a present `null` is `Some(Null)`); an absent
      `tags` object reads as empty. */
  datatype Alert = Alert(
    manager: Option<Value>,
    eventCount: Option<int>,
    incidents: Option<Value>,
    tags: map<string, Value>)

  /** `alert.get("manager", "Unknown")`: only an absent key falls back. */
  function ManagerKey(a: Alert): Value {
    a.manager.GetOr(Str("Unknown"))
  }

  /** `alert.get("event_count", 0)`. */
  function Events(a: Alert): int {
    a.eventCount.GetOr(0)
  }

  /** `not alert.get("incidents", [])`: the incident list is absent or falsy. */
  predicate Unescalated(a: Alert) {
    a.incidents.None? || !Truthy(a.incidents.value)
  }

  /** The alert feeds the Nagios breakdown: its manager is "Nagios" and its
      tags have an `instance` key, whatever that key holds. */
  predicate IsNagiosInstance(a: Alert) {
    ManagerKey(a) == Str("Nagios") && "instance" in a.tags
  }

  /** The three counters of a manager. */
  datatype Activity = Activity(alerts: nat, events: int, noIncidentEvents: int)

  const Idle := Activity(0, 0, 0)

  /** `alerts`, `events`, `no_incident_events`. */
  datatype Measure = AlertCount | EventCount | NoIncidentEvents

  function At(x: Activity, m: Measure): int {
    match m
    case AlertCount => x.alerts
    case EventCount => x.events
    case NoIncidentEvents => x.noIncidentEvents
  }

  /** A manager's counters once alert `a` has been counted. */
  function Add(x: Activity, a: Alert): Activity {
    Activity(x.alerts + 1, x.events + Events(a),
             x.noIncidentEvents + (if Unescalated(a) then Events(a) else 0))
  }

  function Bucket(pm: map<Value, Activity>, k: Value): Activity {
    if k in pm then pm[k] else Idle
  }

  /** The per-manager map once alert `a` has been counted under its manager. */
  function Charge(pm: map<Value, Activity>, a: Alert): map<Value, Activity> {
    var k := ManagerKey(a);
    pm[k := Add(Bucket(pm, k), a)]
  }

  /** The Nagios breakdown once alert `a` has been looked at. */
  function Tag(ng: map<Value, int>, a: Alert): map<Value, int> {
    if IsNagiosInstance(a) then
      var i := a.tags["instance"];
      ng[i := (if i in ng then ng[i] else 0) + Events(a)]
    else ng
  }

  datatype Summary = Summary(perManager: map<Value, Activity>, nagios: map<Value, int>)

  const Empty := Summary(map[], map[])

  /** One iteration of the loop over the alert list. */
  function Step(s: Summary, a: Alert): Summary {
    Summary(Charge(s.perManager, a), Tag(s.nagios, a))
  }

  function Run(s: Summary, rs: seq<Alert>): Summary
    decreases |rs|
  {
    if rs == [] then s else Run(Step(s, rs[0]), rs[1..])
  }

  /** `summarize(alerts_list)`. */
  function Summarize(rs: seq<Alert>): Summary {
    Run(Empty, rs)
  }

  // ---------------------------------------------------------------------
  // Reference definitions, stated record by record

  /** The event counts of the alerts, added up. */
  function EventSum(rs: seq<Alert>): int {
    if rs == [] then 0 else Events(rs[0]) + EventSum(rs[1..])
  }

  /** The event counts of the alerts without incidents, added up. */
  function QuietSum(rs: seq<Alert>): int {
    if rs == [] then 0 else (if Unescalated(rs[0]) then Events(rs[0]) else 0) + QuietSum(rs[1..])
  }

  /** The counters the alerts `rs` make up when all counted in one bucket. */
  function Tallied(rs: seq<Alert>): Activity {
    Activity(|rs|, EventSum(rs), QuietSum(rs))
  }

  /** The alerts of manager `k`, in input order. */
  function OfManager(rs: seq<Alert>, k: Value): seq<Alert> {
    if rs == [] then []
    else (if ManagerKey(rs[0]) == k then [rs[0]] else []) + OfManager(rs[1..], k)
  }

  function Managers(rs: seq<Alert>): set<Value> {
    if rs == [] then {} else {ManagerKey(rs[0])} + Managers(rs[1..])
  }

  /** The Nagios alerts whose `instance` tag is `i`, in input order. */
  function OfInstance(rs: seq<Alert>, i: Value): seq<Alert> {
    if rs == [] then []
    else (if IsNagiosInstance(rs[0]) && rs[0].tags["instance"] == i then [rs[0]] else [])
         + OfInstance(rs[1..], i)
  }

  function Instances(rs: seq<Alert>): set<Value> {
    if rs == [] then {}
    else (if IsNagiosInstance(rs[0]) then {rs[0].tags["instance"]} else {}) + Instances(rs[1..])
  }

  /** The alerts that feed the Nagios breakdown, in input order. */
  function NagiosAlerts(rs: seq<Alert>): seq<Alert> {
    if rs == [] then []
    else (if IsNagiosInstance(rs[0]) then [rs[0]] else []) + NagiosAlerts(rs[1..])
  }

  /** Measure `m` of each manager, as a map to sum over. */
  function Column(pm: map<Value, Activity>, m: Measure): map<Value, int> {
    map k | k in pm :: At(pm[k], m)
  }

  // ---------------------------------------------------------------------
  // Properties of the loop

  lemma {:induction false} TalliedCons(a: Alert, rs: seq<Alert>)
    ensures Tallied([a] + rs) == Activity(1 + |rs|, Events(a) + EventSum(rs),
                                          (if Unescalated(a) then Events(a) else 0) + QuietSum(rs))
  {
    var xs := [a] + rs;
    assert xs[0] == a && xs[1..] == rs;
  }

  lemma {:induction false} RunBucket(s: Summary, rs: seq<Alert>, k: Value)
    ensures var b := Bucket(s.perManager, k);
            var t := Tallied(OfManager(rs, k));
            Bucket(Run(s, rs).perManager, k)
            == Activity(b.alerts + t.alerts, b.events + t.events, b.noIncidentEvents + t.noIncidentEvents)
    decreases |rs|
  {
    if rs != [] {
      var s' := Step(s, rs[0]);
      RunBucket(s', rs[1..], k);
      if ManagerKey(rs[0]) == k {
        TalliedCons(rs[0], OfManager(rs[1..], k));
      } else {
        assert Bucket(s'.perManager, k) == Bucket(s.perManager, k);
        assert OfManager(rs, k) == [] + OfManager(rs[1..], k);
        assert [] + OfManager(rs[1..], k) == OfManager(rs[1..], k);
      }
    }
  }

  lemma StepKeys(s: Summary, a: Alert)
    ensures Step(s, a).perManager.Keys == s.perManager.Keys + {ManagerKey(a)}
  {
  }

  lemma {:induction false} RunKeys(s: Summary, rs: seq<Alert>)
    ensures Run(s, rs).perManager.Keys == s.perManager.Keys + Managers(rs)
    decreases |rs|
  {
    if rs != [] {
      RunKeys(Step(s, rs[0]), rs[1..]);
      StepKeys(s, rs[0]);
      UnionAssoc(s.perManager.Keys, {ManagerKey(rs[0])}, Managers(rs[1..]));
    }
  }

  lemma {:induction false} ManagersAt(rs: seq<Alert>, k: Value)
    ensures k in Managers(rs) <==> exists i :: 0 <= i < |rs| && ManagerKey(rs[i]) == k
    decreases |rs|
  {
    if rs != [] {
      ManagersAt(rs[1..], k);
      if k in Managers(rs[1..]) {
        var i :| 0 <= i < |rs[1..]| && ManagerKey(rs[1..][i]) == k;
        assert rs[i + 1] == rs[1..][i];
      }
      if exists i :: 0 <= i < |rs| && ManagerKey(rs[i]) == k {
        var i :| 0 <= i < |rs| && ManagerKey(rs[i]) == k;
        if i > 0 {
          assert rs[1..][i - 1] == rs[i];
        }
      }
    }
  }

  lemma ColumnPut(pm: map<Value, Activity>, k: Value, x: Activity, m: Measure)
    ensures Column(pm[k := x], m) == Column(pm, m)[k := At(x, m)]
  {
  }

  /** What alert `a` adds to measure `m`. */
  function Weight(a: Alert, m: Measure): int {
    match m
    case AlertCount => 1
    case EventCount => Events(a)
    case NoIncidentEvents => if Unescalated(a) then Events(a) else 0
  }

  function Total(rs: seq<Alert>, m: Measure): int {
    if rs == [] then 0 else Weight(rs[0], m) + Total(rs[1..], m)
  }

  lemma {:induction false} RunColumnSum(s: Summary, rs: seq<Alert>, m: Measure)
    ensures Sum(Column(Run(s, rs).perManager, m)) == Sum(Column(s.perManager, m)) + Total(rs, m)
    decreases |rs|
  {
    if rs != [] {
      var a := rs[0];
      var k := ManagerKey(a);
      var b := Bucket(s.perManager, k);
      ColumnPut(s.perManager, k, Add(b, a), m);
      SumPut(Column(s.perManager, m), k, At(Add(b, a), m));
      RunColumnSum(Step(s, a), rs[1..], m);
    }
  }

  lemma {:induction false} TotalIsReference(rs: seq<Alert>)
    ensures Total(rs, AlertCount) == |rs|
    ensures Total(rs, EventCount) == EventSum(rs)
    ensures Total(rs, NoIncidentEvents) == QuietSum(rs)
  {
    if rs != [] {
      TotalIsReference(rs[1..]);
    }
  }

  lemma {:induction false} QuietBounded(rs: seq<Alert>)
    requires forall i :: 0 <= i < |rs| ==> Events(rs[i]) >= 0
    ensures 0 <= QuietSum(rs) <= EventSum(rs)
  {
    if rs != [] {
      assert forall i :: 0 <= i < |rs[1..]| ==> rs[1..][i] == rs[i + 1];
      QuietBounded(rs[1..]);
    }
  }

  lemma {:induction false} OfManagerMembers(rs: seq<Alert>, k: Value)
    ensures forall a :: a in OfManager(rs, k) ==> a in rs
  {
    if rs != [] {
      OfManagerMembers(rs[1..], k);
    }
  }

  /** A manager has a bucket exactly when some alert resolves to it, and the
      bucket counts that manager's alerts, adds up their event counts, and
      adds up the event counts of those without incidents. */
  lemma PerManager(rs: seq<Alert>, k: Value)
    ensures k in Summarize(rs).perManager <==> exists i :: 0 <= i < |rs| && ManagerKey(rs[i]) == k
    ensures k in Summarize(rs).perManager ==> Summarize(rs).perManager[k] == Tallied(OfManager(rs, k))
  {
    RunKeys(Empty, rs);
    ManagersAt(rs, k);
    RunBucket(Empty, rs, k);
  }

  /** `alerts` over all managers adds up to the number of alerts, and
      `events` and `no_incident_events` to the same sums taken over the
      whole list. */
  lemma ManagersAddUp(rs: seq<Alert>)
    ensures Sum(Column(Summarize(rs).perManager, AlertCount)) == |rs|
    ensures Sum(Column(Summarize(rs).perManager, EventCount)) == EventSum(rs)
    ensures Sum(Column(Summarize(rs).perManager, NoIncidentEvents)) == QuietSum(rs)
  {
    assert Column(Empty.perManager, AlertCount) == map[];
    assert Column(Empty.perManager, EventCount) == map[];
    assert Column(Empty.perManager, NoIncidentEvents) == map[];
    RunColumnSum(Empty, rs, AlertCount);
    RunColumnSum(Empty, rs, EventCount);
    RunColumnSum(Empty, rs, NoIncidentEvents);
    TotalIsReference(rs);
  }

  /** With non-negative event counts, a manager's unescalated events never
      exceed its events. */
  lemma QuietWithinEvents(rs: seq<Alert>, k: Value)
    requires forall i :: 0 <= i < |rs| ==> Events(rs[i]) >= 0
    requires k in Summarize(rs).perManager
    ensures 0 <= Summarize(rs).perManager[k].noIncidentEvents <= Summarize(rs).perManager[k].events
  {
    PerManager(rs, k);
    var mine := OfManager(rs, k);
    OfManagerMembers(rs, k);
    forall i | 0 <= i < |mine| ensures Events(mine[i]) >= 0 {
      assert mine[i] in rs;
    }
    QuietBounded(mine);
  }

  /** Only an absent `manager` key falls back to "Unknown": a `null`
      manager keeps its own bucket. */
  lemma UnknownOnlyWhenAbsent()
    ensures Summarize([Alert(None, Some(3), None, map[])]).perManager
            == map[Str("Unknown") := Activity(1, 3, 3)]
    ensures Summarize([Alert(Some(Null), Some(3), None, map[])]).perManager
            == map[Null := Activity(1, 3, 3)]
  {
  }

  // ---------------------------------------------------------------------
  // The Nagios breakdown

  lemma StepInstances(s: Summary, a: Alert)
    ensures Step(s, a).nagios.Keys
         == s.nagios.Keys + (if IsNagiosInstance(a) then {a.tags["instance"]} else {})
  {
  }

  lemma {:induction false} RunInstances(s: Summary, rs: seq<Alert>)
    ensures Run(s, rs).nagios.Keys == s.nagios.Keys + Instances(rs)
    decreases |rs|
  {
    if rs != [] {
      var a := rs[0];
      RunInstances(Step(s, a), rs[1..]);
      StepInstances(s, a);
      UnionAssoc(s.nagios.Keys, if IsNagiosInstance(a) then {a.tags["instance"]} else {}, Instances(rs[1..]));
    }
  }

  lemma {:induction false} RunInstance(s: Summary, rs: seq<Alert>, i: Value)
    ensures var n := Run(s, rs).nagios;
            (if i in n then n[i] else 0)
            == (if i in s.nagios then s.nagios[i] else 0) + EventSum(OfInstance(rs, i))
    decreases |rs|
  {
    if rs != [] {
      var a := rs[0];
      RunInstance(Step(s, a), rs[1..], i);
      var rest := OfInstance(rs[1..], i);
      if IsNagiosInstance(a) && a.tags["instance"] == i {
        var mine := [a] + rest;
        assert OfInstance(rs, i) == mine;
        assert mine[0] == a && mine[1..] == rest;
      } else {
        assert OfInstance(rs, i) == [] + rest;
        assert [] + rest == rest;
      }
    }
  }

  /** The breakdown has a key for every instance tag of a Nagios alert and no
      other, and each holds the event counts of that instance's Nagios alerts
      added up. */
  lemma NagiosBreakdown(rs: seq<Alert>, i: Value)
    ensures i in Summarize(rs).nagios <==> i in Instances(rs)
    ensures i in Summarize(rs).nagios ==> Summarize(rs).nagios[i] == EventSum(OfInstance(rs, i))
  {
    RunInstances(Empty, rs);
    RunInstance(Empty, rs, i);
  }

  lemma {:induction false} RunNagiosOnly(s: Summary, t: Summary, rs: seq<Alert>)
    requires s.nagios == t.nagios
    ensures Run(s, rs).nagios == Run(t, NagiosAlerts(rs)).nagios
    decreases |rs|
  {
    if rs != [] {
      var a := rs[0];
      var rest := NagiosAlerts(rs[1..]);
      if IsNagiosInstance(a) {
        var mine := [a] + rest;
        assert NagiosAlerts(rs) == mine;
        assert mine[0] == a && mine[1..] == rest;
        RunNagiosOnly(Step(s, a), Step(t, a), rs[1..]);
      } else {
        assert NagiosAlerts(rs) == [] + rest;
        assert [] + rest == rest;
        RunNagiosOnly(Step(s, a), t, rs[1..]);
      }
    }
  }

  /** Other managers never contribute: the breakdown is the same once every
      alert that is not a Nagios alert with an instance tag is removed. */
  lemma NagiosIgnoresOthers(rs: seq<Alert>)
    ensures Summarize(rs).nagios == Summarize(NagiosAlerts(rs)).nagios
  {
    RunNagiosOnly(Empty, Empty, rs);
  }

  /** Three alerts: two Nagios alerts of instance "host1" (5 events without
      incidents, 2 events with one) and one Dynatrace alert of 1 event. */
  lemma ThreeAlerts()
    ensures var rs := [
              Alert(Some(Str("Nagios")), Some(5), Some(Other("[]", false)), map["instance" := Str("host1")]),
              Alert(Some(Str("Nagios")), Some(2), Some(Other("['i1']", true)), map["instance" := Str("host1")]),
              Alert(Some(Str("Dynatrace")), Some(1), None, map[])];
            && Summarize(rs).perManager[Str("Nagios")] == Activity(2, 7, 5)
            && Summarize(rs).perManager[Str("Dynatrace")] == Activity(1, 1, 1)
            && Summarize(rs).nagios == map[Str("host1") := 7]
  {
  }

  // ---------------------------------------------------------------------
  // The aggregation over two windows

  datatype Report = Report(thisMonth: Summary, last24h: Summary)

  /** `fetch_alerts_since`: the search-after loop over the alert search. */
  method FetchAlertsSince(pages: seq<Fetch.Page<Alert>>) returns (r: Result<seq<Alert>>)
    ensures r.Raised? <==> Fetch.FetchFails(pages)
    ensures r.Ok? ==> r.value == Fetch.Fetched(pages)
  {
    r := Fetch.FetchSince(pages);
  }

  /** `aggregate_alerts`: fetch both windows (a failing fetch raises), then
      summarise each window from its own list only. */
  method AggregateAlerts(monthPages: seq<Fetch.Page<Alert>>, dayPages: seq<Fetch.Page<Alert>>)
    returns (r: Result<Report>)
    ensures r.Raised? <==> Fetch.FetchFails(monthPages) || Fetch.FetchFails(dayPages)
    ensures r.Ok? ==> r.value.thisMonth == Summarize(Fetch.Fetched(monthPages))
    ensures r.Ok? ==> r.value.last24h == Summarize(Fetch.Fetched(dayPages))
  {
    var month := FetchAlertsSince(monthPages);
    if month.Raised? {
      return Raised;
    }
    var day := FetchAlertsSince(dayPages);
    if day.Raised? {
      return Raised;
    }
    r := Ok(Report(Summarize(month.value), Summarize(day.value)));
  }
}

=== FILE: audits.dfy ===
/** The audit counter: one query per service of a fixed catalogue, each
    giving that service's change count, or 0 when it fails in any way. */
module Audits {
  import opened Values
  import opened Fetch
  import opened Tally

  /** `AUDIT_SERVICES`, queried in this order. */
  const AuditServices: seq<string> := [
    "ums-apikey", "ums-sso", "ums-role", "maintenance-windows",
    "catalogs", "workflows", "correlation-engine", "correlation-engine-webserver",
    "webhooks", "notification-policies", "byoapi"]

  /** The `data` field of a successful reply: absent, an object with an
      optional `count`, or something without `.get` (which raises). */
  datatype Body = NoData | Counted(count: Option<Value>) | Malformed

  /** The value recorded for one service: 0 when the request raised, the
      status is not "success" or the body is malformed, else `count`
      (0 when absent). */
  function CountOf(r: Reply<Body>): Value {
    if !Succeeded(r) then Int(0)
    else
      match r.data
      case NoData => Int(0)
      case Counted(c) => c.GetOr(Int(0))
      case Malformed => Int(0)
  }

  /** The loop over `services`, writing one key per service into `acc`. */
  function Collect(services: seq<string>, fetch: string -> Reply<Body>, acc: map<string, Value>): map<string, Value>
    decreases |services|
  {
    if services == [] then acc
    else Collect(services[1..], fetch, acc[services[0] := CountOf(fetch(services[0]))])
  }

  /** `fetch_audit_counts(start, end)`, the reply for each service given by
      `fetch` (the time range only shapes the requests). */
  function AuditCounts(fetch: string -> Reply<Body>): map<string, Value> {
    Collect(AuditServices, fetch, map[])
  }

  lemma {:induction false} CollectAt(services: seq<string>, fetch: string -> Reply<Body>, acc: map<string, Value>, s: string)
    ensures s in Collect(services, fetch, acc) <==> s in acc || s in services
    ensures s in services ==> Collect(services, fetch, acc)[s] == CountOf(fetch(s))
    ensures s !in services && s in acc ==> Collect(services, fetch, acc)[s] == acc[s]
    decreases |services|
  {
    if services != [] {
      CollectAt(services[1..], fetch, acc[services[0] := CountOf(fetch(services[0]))], s);
    }
  }

  /** No service is queried twice. */
  lemma ServicesDistinct()
    ensures Distinct(AuditServices)
  {
    forall i, j | 0 <= i < j < |AuditServices| ensures AuditServices[i] != AuditServices[j] {
      assert AuditServices[i][..2] != AuditServices[j][..2] || |AuditServices[i]| != |AuditServices[j]|
          || AuditServices[i][4] != AuditServices[j][4];
    }
  }

  lemma {:induction false} CollectKeys(fetch: string -> Reply<Body>)
    ensures AuditCounts(fetch).Keys == set s | s in AuditServices
  {
    forall s ensures s in AuditCounts(fetch) <==> s in AuditServices {
      CollectAt(AuditServices, fetch, map[], s);
    }
  }

  /** The result has exactly one key per service of the catalogue, eleven in
      all, and each holds that service's own count. */
  lemma EveryServiceCounted(fetch: string -> Reply<Body>)
    ensures AuditCounts(fetch).Keys == set s | s in AuditServices
    ensures |AuditCounts(fetch)| == 11
    ensures forall s :: s in AuditServices ==> AuditCounts(fetch)[s] == CountOf(fetch(s))
  {
    CollectKeys(fetch);
    forall s | s in AuditServices ensures AuditCounts(fetch)[s] == CountOf(fetch(s)) {
      CollectAt(AuditServices, fetch, map[], s);
    }
    ServicesDistinct();
    DistinctCard(AuditServices);
  }

  /** One service's failure leaves every other service's value unchanged. */
  lemma FailureIsolated(f: string -> Reply<Body>, g: string -> Reply<Body>, s: string)
    requires s in AuditServices
    requires f(s) == g(s)
    ensures s in AuditCounts(f) && s in AuditCounts(g)
    ensures AuditCounts(f)[s] == AuditCounts(g)[s]
  {
    EveryServiceCounted(f);
    EveryServiceCounted(g);
  }

  /** When every query fails, every service is still present, with 0. */
  lemma AllFailing(fetch: string -> Reply<Body>)
    requires forall s :: !Succeeded(fetch(s))
    ensures |AuditCounts(fetch)| == 11
    ensures forall s :: s in AuditCounts(fetch) ==> AuditCounts(fetch)[s] == Int(0)
  {
    EveryServiceCounted(fetch);
  }
}

=== FILE: catalogs.dfy ===
/** The catalogue freshness check: the newest catalogues, up to a limit,
    and whether every one of them was updated within the last 24 hours. */
module Catalogs {
  import opened Values
  import opened Fetch
  import opened Ranking

  /** A catalogue record: `name` and `entries` (`None` when the key is
      absent) and `last_updated` in epoch milliseconds (`None` when absent). */
  datatype Catalog = Catalog(name: Option<Value>, entries: Option<Value>, lastUpdated: Option<int>)

  /** `x.get("last_updated", 0)`, the sort key and the freshness stamp. */
  function Stamp(c: Catalog): int {
    c.lastUpdated.GetOr(0)
  }

  /** A catalogue as listed in the report (its date rendered from `lastUpdated`). */
  datatype Selected = Selected(name: Value, entries: Value, lastUpdated: int)

  function Select(c: Catalog): Selected {
    Selected(c.name.GetOr(Str("Unknown")), c.entries.GetOr(Int(0)), Stamp(c))
  }

  /** Updated at or after the 24-hour threshold. */
  predicate Fresh(c: Catalog, now: int) {
    Stamp(c) >= Threshold(now)
  }

  predicate AllFresh(cs: seq<Catalog>, now: int) {
    forall i :: 0 <= i < |cs| ==> Fresh(cs[i], now)
  }

  /** The catalogues the loop visits: newest first, then `[:limit]`. */
  function Top(data: seq<Catalog>, limit: int): (r: seq<Catalog>)
    ensures limit >= 0 ==> |r| == if limit < |data| then limit else |data|
    ensures multiset(r) <= multiset(data)
  {
    TopAreLargest(data, Stamp, limit);
    Prefix(SortDesc(data, Stamp), limit)
  }

  datatype Freshness = Freshness(recent: seq<Selected>, syncStatus: string)

  const Failed := Freshness([], "Failed")

  /** `fetch_recent_catalog_updates(epoch_now, limit)`, the catalogue
      request's outcome given as `reply` (a missing or null `data` is the
      empty list). The source's default `limit` of 5 is passed explicitly. */
  method FetchRecentCatalogUpdates(reply: Reply<seq<Catalog>>, now: int, limit: int) returns (r: Freshness)
    ensures !Succeeded(reply) || reply.data == [] ==> r == Failed
    ensures Succeeded(reply) && reply.data != [] ==>
              var top := Top(reply.data, limit);
              && |r.recent| == |top|
              && (forall i :: 0 <= i < |top| ==> r.recent[i] == Select(top[i]))
              && (r.syncStatus == "Success" <==> AllFresh(top, now))
              && (r.syncStatus == "Success" || r.syncStatus == "Failed")
  {
    if !Succeeded(reply) || reply.data == [] {
      return Failed;
    }
    var top := Top(reply.data, limit);
    var recent: seq<Selected> := [];
    var sync := true;
    var i := 0;
    while i < |top|
      invariant Invariant(top, i, recent, sync, now)
    {
      Visit(top, i, recent, sync, now);
      recent := recent + [Select(top[i])];
      sync := sync && Fresh(top[i], now);
      i := i + 1;
    }
    assert top[..i] == top;
    r := Freshness(recent, if sync then "Success" else "Failed");
  }

  /** What the loop keeps true after the first `i` selected catalogues. */
  ghost predicate Invariant(top: seq<Catalog>, i: nat, recent: seq<Selected>, sync: bool, now: int) {
    && i <= |top|
    && |recent| == i
    && (forall k :: 0 <= k < i ==> recent[k] == Select(top[k]))
    && (sync <==> AllFresh(top[..i], now))
  }

  /** One iteration lists the catalogue and clears the flag if it is stale. */
  lemma Visit(top: seq<Catalog>, i: nat, recent: seq<Selected>, sync: bool, now: int)
    requires Invariant(top, i, recent, sync, now) && i < |top|
    ensures Invariant(top, i + 1, recent + [Select(top[i])], sync && Fresh(top[i], now), now)
  {
    assert top[..i + 1] == top[..i] + [top[i]];
  }

  /** The selection is newest first, so the check rests on its oldest
      member: all of it is fresh exactly when its last catalogue is. */
  lemma OldestDecides(data: seq<Catalog>, limit: int, now: int)
    requires Top(data, limit) != []
    ensures var top := Top(data, limit);
            AllFresh(top, now) <==> Fresh(top[|top| - 1], now)
  {
    var top := Top(data, limit);
    TopAreLargest(data, Stamp, limit);
    assert Descending(top, Stamp);
    if Fresh(top[|top| - 1], now) {
      forall i | 0 <= i < |top| ensures Fresh(top[i], now) {
        if i < |top| - 1 {
          assert Stamp(top[i]) >= Stamp(top[|top| - 1]);
        }
      }
    }
  }

  /** Only the selected catalogues are judged: a stale catalogue left out by
      the limit never fails the check, and a fresh one left out never
      rescues it, since each one left out is no newer than any selected. */
  lemma LeftOutAreOlder(data: seq<Catalog>, limit: int, c: Catalog, t: Catalog)
    requires c in data && c !in Top(data, limit) && t in Top(data, limit)
    ensures Stamp(c) <= Stamp(t)
  {
    var sorted := SortDesc(data, Stamp);
    var top := Top(data, limit);
    TopAreLargest(data, Stamp, limit);
    assert top <= sorted;
    assert c in multiset(sorted);
    var j :| 0 <= j < |sorted| && sorted[j] == c;
    var i :| 0 <= i < |top| && top[i] == t;
    if j < |top| {
      assert sorted[j] == top[j];
    }
  }

  /** When every catalogue is fresh the check succeeds, and when every one
      is stale and at least one is selected it fails. */
  lemma UniformCatalogues(data: seq<Catalog>, limit: int, now: int)
    ensures (forall c :: c in data ==> Fresh(c, now)) ==> AllFresh(Top(data, limit), now)
    ensures (forall c :: c in data ==> !Fresh(c, now)) && Top(data, limit) != [] ==> !AllFresh(Top(data, limit), now)
  {
    var top := Top(data, limit);
    forall i | 0 <= i < |top| ensures top[i] in data {
      assert top[i] in multiset(top);
    }
    if top != [] && forall c :: c in data ==> !Fresh(c, now) {
      assert !Fresh(top[0], now);
    }
  }

  /** With a limit of zero a non-empty listing selects nothing and, having
      nothing to judge, reports success. */
  lemma ZeroLimitSucceeds(data: seq<Catalog>, now: int)
    ensures Top(data, 0) == [] && AllFresh(Top(data, 0), now)
  {
  }
}

=== FILE: fetch.dfy ===
/** What the core sees of the monitoring API: single-shot replies with a
    status field, and the two paginated searches (cursor-paged and
    offset-paged). A paginated source is given as the finite sequence of
    replies its successive requests receive; a request past the end of
    that sequence receives an empty page, the source having no more data. */
module Fetch {
  import opened Values

  /** One answer of a single-shot endpoint: the request raised (transport
      error, HTTP error status, undecodable body), or it returned a body
      with a `status` field and a payload. */
  datatype Reply<D> = Failure | Reply(status: Value, data: D)

  /** `data.get("status") == "success"` on a reply that did not raise. */
  predicate Succeeded<D>(r: Reply<D>) {
    r.Reply? && r.status == Str("success")
  }

  /** Milliseconds in 24 hours, `24 * 60 * 60 * 1000`: times the API
      reports are epoch milliseconds. */
  const DayMs: int := 86_400_000

  /** Records stamped at or after this time count as recent. */
  function Threshold(now: int): int {
    now - DayMs
  }

  // ---------------------------------------------------------------------
  // Cursor ("search_after") pagination

  /** One answer of the cursor-paged search: the request raised, or it
      returned `data.result` and `data.search_after` (`None` if absent). */
  datatype Page<R> = Broken | Page(results: seq<R>, searchAfter: Value)

  /** A page after which the loop asks for another one. */
  predicate Continues<R>(p: Page<R>) {
    p.Page? && |p.results| > 0 && Truthy(p.searchAfter)
  }

  /** The records a page carries; a broken page carries none. */
  function Records<R>(p: Page<R>): seq<R> {
    if p.Page? then p.results else []
  }

  function PageAt<R>(pages: seq<Page<R>>, i: nat): Page<R> {
    if i < |pages| then pages[i] else Page([], Null)
  }

  /** Index of the last page requested: the first page that does not continue. */
  function CursorStop<R>(pages: seq<Page<R>>): (n: nat)
    ensures n <= |pages|
    ensures forall k :: 0 <= k < n ==> Continues(pages[k])
    ensures n < |pages| ==> !Continues(pages[n])
  {
    if pages == [] || !Continues(pages[0]) then 0 else 1 + CursorStop(pages[1..])
  }

  /** The records of the given pages, in page order. */
  function Joined<R>(pages: seq<Page<R>>): seq<R> {
    if pages == [] then []
    else
      Joined(pages[..|pages| - 1]) + Records(pages[|pages| - 1])
  }

  /** The records a cursor-paged fetch returns when it does not raise: every
      page up to and including the first one that does not continue. */
  function Fetched<R>(pages: seq<Page<R>>): seq<R> {
    Joined(pages[..CursorStop(pages)]) + Records(PageAt(pages, CursorStop(pages)))
  }

  /** A cursor-paged fetch raises when a page it requests is broken. */
  predicate FetchFails<R>(pages: seq<Page<R>>) {
    PageAt(pages, CursorStop(pages)).Broken?
  }

  /** The search-after loop: request pages until one is empty or carries no
      truthy cursor; a request that raises aborts the whole fetch. */
  method FetchSince<R>(pages: seq<Page<R>>) returns (r: Result<seq<R>>)
    ensures r.Raised? <==> FetchFails(pages)
    ensures r.Ok? ==> r.value == Fetched(pages)
  {
    var acc: seq<R> := [];
    var i := 0;
    while true
      invariant i <= CursorStop(pages)
      invariant acc == Joined(pages[..i])
      decreases |pages| - i
    {
      var page := PageAt(pages, i);
      if page.Broken? {
        return Raised;
      }
      if |page.results| == 0 {
        return Ok(acc);
      }
      acc := acc + page.results;
      if !Truthy(page.searchAfter) {
        return Ok(acc);
      }
      assert pages[..i + 1][..i] == pages[..i];
      i := i + 1;
    }
  }

  /** A first page with records but no cursor is the only page fetched. */
  lemma SinglePageWithoutCursor<R>(pages: seq<Page<R>>)
    requires |pages| > 0 && pages[0].Page? && |pages[0].results| > 0
    requires !Truthy(pages[0].searchAfter)
    ensures CursorStop(pages) == 0
    ensures Fetched(pages) == pages[0].results
  {
  }

  // ---------------------------------------------------------------------
  // Offset pagination

  /** Page size of the offset-paged alert search. */
  const PageLimit: nat := 5000

  /** The records a reply carries; a failed request carries none. */
  function Payload<A>(r: Reply<seq<A>>): seq<A> {
    if r.Reply? then r.data else []
  }

  function ReplyAt<A>(replies: seq<Reply<seq<A>>>, i: nat): Reply<seq<A>> {
    if i < |replies| then replies[i] else Reply(Str("success"), [])
  }

  /** A reply after which the loop asks for the next offset: successful and full. */
  predicate Full<A>(r: Reply<seq<A>>) {
    Succeeded(r) && |r.data| >= PageLimit
  }

  /** Index of the last request made: the first reply that is not full. */
  function OffsetStop<A>(replies: seq<Reply<seq<A>>>): (n: nat)
    ensures n <= |replies|
    ensures forall k :: 0 <= k < n ==> Full(replies[k])
    ensures n < |replies| ==> !Full(replies[n])
  {
    if replies == [] || !Full(replies[0]) then 0 else 1 + OffsetStop(replies[1..])
  }

  /** The payloads of the given replies, in order. */
  function Collected<A>(replies: seq<Reply<seq<A>>>): seq<A> {
    if replies == [] then []
    else
      Collected(replies[..|replies| - 1]) + Payload(replies[|replies| - 1])
  }

  /** The records an offset-paged fetch returns when it does not raise. */
  function OffsetFetched<A>(replies: seq<Reply<seq<A>>>): seq<A> {
    Collected(replies[..OffsetStop(replies)]) + Payload(ReplyAt(replies, OffsetStop(replies)))
  }

  /** An offset-paged fetch raises when a request it makes fails or is not "success". */
  predicate OffsetFails<A>(replies: seq<Reply<seq<A>>>) {
    !Succeeded(ReplyAt(replies, OffsetStop(replies)))
  }

  /** The start/limit loop: request `limit` records at offsets 0, limit,
      2*limit, ...; stop on an empty or short page; raise on a request that
      fails or a body whose status is not "success". Also returns the
      `start` offsets of the requests made. */
  method FetchByOffset<A>(replies: seq<Reply<seq<A>>>) returns (r: Result<seq<A>>, starts: seq<int>)
    ensures r.Raised? <==> OffsetFails(replies)
    ensures r.Ok? ==> r.value == OffsetFetched(replies)
    ensures |starts| == OffsetStop(replies) + 1
    ensures forall k :: 0 <= k < |starts| ==> starts[k] == k * PageLimit
  {
    var acc: seq<A> := [];
    var start := 0;
    var i := 0;
    starts := [];
    while true
      invariant i <= OffsetStop(replies)
      invariant start == i * PageLimit
      invariant acc == Collected(replies[..i])
      invariant |starts| == i
      invariant forall k :: 0 <= k < i ==> starts[k] == k * PageLimit
      decreases |replies| - i
    {
      starts := starts + [start];
      var reply := ReplyAt(replies, i);
      if !Succeeded(reply) {
        r := Raised;
        return;
      }
      var page := reply.data;
      if |page| == 0 {
        r := Ok(acc);
        return;
      }
      acc := acc + page;
      if |page| < PageLimit {
        r := Ok(acc);
        return;
      }
      assert replies[..i + 1][..i] == replies[..i];
      start := start + PageLimit;
      i := i + 1;
    }
  }
}

=== FILE: inbound_errors.dfy ===
/** The inbound error correlator: for every inbound integration, split the
    entries of its error log at the 24-hour threshold; recent entries are
    counted per integration name with the distinct reasons they give, older
    ones are only counted. */
module InboundErrors {
  import opened Values
  import opened Tally
  import opened Fetch
  import opened Probes

  /** An error-log entry: its `timestamp` and its `errors` list (empty when absent). */
  type ErrorEntry = Entry<seq<Value>>

  /** A recent bucket: `count` and the set of `reasons`. */
  datatype Recent = Recent(count: nat, reasons: set<Value>)

  /** A recent bucket as created on a name's first recent entry. */
  const Fresh := Recent(0, {})

  function SetOf(xs: seq<Value>): set<Value> {
    set x | x in xs
  }

  /** A recent entry adds one to the count and its reasons to the set. */
  function Note(r: Recent, reasons: seq<Value>): Recent {
    Recent(r.count + 1, r.reasons + SetOf(reasons))
  }

  /** The two loops of `fetch_inbound_errors`, before the reason sets are listed. */
  function Correlate(ps: seq<Probe<ErrorEntry>>, now: int): Buckets<Recent> {
    Split(ps, now, Note, Fresh)
  }

  // ---------------------------------------------------------------------
  // Reference definitions, stated entry by entry

  /** Every reason the entries give. */
  function ReasonsOf(obs: seq<Obs<ErrorEntry>>): set<Value> {
    if obs == [] then {} else SetOf(obs[0].entry.payload) + ReasonsOf(obs[1..])
  }

  /** How many entries carry a timestamp. */
  function StampedCount(obs: seq<Obs<ErrorEntry>>): nat {
    if obs == [] then 0 else (if obs[0].entry.timestamp.Some? then 1 else 0) + StampedCount(obs[1..])
  }

  function Counts(m: map<Value, Recent>): map<Value, int> {
    map n | n in m :: m[n].count
  }

  function OlderCounts(m: map<Value, nat>): map<Value, int> {
    map n | n in m :: m[n] as int
  }

  // ---------------------------------------------------------------------
  // Properties of the loop

  /** Noting entries one by one counts them and collects all their reasons. */
  lemma {:induction false} NoteAllReasons(r: Recent, obs: seq<Obs<ErrorEntry>>)
    ensures NoteAll(r, Payloads(obs), Note) == Recent(r.count + |obs|, r.reasons + ReasonsOf(obs))
    decreases |obs|
  {
    if obs != [] {
      var ps := Payloads(obs);
      assert ps[0] == obs[0].entry.payload && ps[1..] == Payloads(obs[1..]);
      NoteAllReasons(Note(r, obs[0].entry.payload), obs[1..]);
      UnionAssoc(r.reasons, SetOf(obs[0].entry.payload), ReasonsOf(obs[1..]));
    }
  }

  /** Counting one entry raises the two bucket totals by one exactly when it carries a timestamp. */
  lemma StepSums(b: Buckets<Recent>, o: Obs<ErrorEntry>, now: int)
    ensures var out := Place(b, o, now, Note, Fresh);
            Sum(Counts(out.recent)) + Sum(OlderCounts(out.older))
            == Sum(Counts(b.recent)) + Sum(OlderCounts(b.older)) + (if o.entry.timestamp.Some? then 1 else 0)
  {
    if IsRecent(o.entry.timestamp, now) {
      var x := Note(RecentAt(b.recent, o.name, Fresh), o.entry.payload);
      assert Counts(b.recent[o.name := x]) == Counts(b.recent)[o.name := x.count];
      SumPut(Counts(b.recent), o.name, x.count);
    } else if IsOlder(o.entry.timestamp, now) {
      var c := OlderAt(b.older, o.name) + 1;
      assert OlderCounts(b.older[o.name := c]) == OlderCounts(b.older)[o.name := c];
      SumPut(OlderCounts(b.older), o.name, c);
    }
  }

  lemma {:induction false} RunSums(b: Buckets<Recent>, obs: seq<Obs<ErrorEntry>>, now: int)
    ensures var out := PlaceAll(b, obs, now, Note, Fresh);
            Sum(Counts(out.recent)) + Sum(OlderCounts(out.older))
            == Sum(Counts(b.recent)) + Sum(OlderCounts(b.older)) + StampedCount(obs)
    decreases |obs|
  {
    if obs != [] {
      StepSums(b, obs[0], now);
      RunSums(Place(b, obs[0], now, Note, Fresh), obs[1..], now);
    }
  }

  /** A name is a key of the recent buckets exactly when at least one of its
      entries is recent; the bucket counts those entries and holds every
      reason they give. Integrations sharing a name share the bucket. */
  lemma RecentBuckets(ps: seq<Probe<ErrorEntry>>, now: int, n: Value)
    ensures var mine := RecentEntries(Observations(ps), n, now);
            && (n in Correlate(ps, now).recent <==> |mine| > 0)
            && (n in Correlate(ps, now).recent ==>
                  Correlate(ps, now).recent[n] == Recent(|mine|, ReasonsOf(mine)))
  {
    var mine := RecentEntries(Observations(ps), n, now);
    SplitRecent(ps, now, n, Note, Fresh);
    NoteAllReasons(Fresh, mine);
  }

  /** The counts of both buckets add up to the number of entries with a
      timestamp among the integrations whose fetch succeeded. */
  lemma CountsAddUp(ps: seq<Probe<ErrorEntry>>, now: int)
    ensures Sum(Counts(Correlate(ps, now).recent)) + Sum(OlderCounts(Correlate(ps, now).older))
         == StampedCount(Observations(ps))
  {
    assert Counts(map[]) == map[];
    assert OlderCounts(map[]) == map[];
    RunSums(Buckets(map[], map[]), Observations(ps), now);
  }

  // ---------------------------------------------------------------------
  // The returned form

  /** A recent bucket as returned: its reasons listed once each. */
  datatype Listed = Listed(count: nat, reasons: seq<Value>)

  /** The conversion loop at the end: every recent bucket's set of reasons
      becomes a list of the same reasons without repetition. */
  method ListReasons(recent: map<Value, Recent>) returns (r: map<Value, Listed>)
    ensures r.Keys == recent.Keys
    ensures forall n :: n in r ==> r[n].count == recent[n].count
    ensures forall n :: n in r ==> Distinct(r[n].reasons)
    ensures forall n, x :: n in r ==> (x in r[n].reasons <==> x in recent[n].reasons)
  {
    r := map[];
    var todo := recent.Keys;
    while todo != {}
      invariant todo <= recent.Keys
      invariant r.Keys == recent.Keys - todo
      invariant forall n :: n in r ==> r[n].count == recent[n].count
      invariant forall n :: n in r ==> Distinct(r[n].reasons)
      invariant forall n, x :: n in r ==> (x in r[n].reasons <==> x in recent[n].reasons)
      decreases |todo|
    {
      var n :| n in todo;
      var reasons := SetToList(recent[n].reasons);
      r := r[n := Listed(recent[n].count, reasons)];
      todo := todo - {n};
    }
  }

  datatype Report = Report(recent: map<Value, Listed>, older: map<Value, nat>)

  /** `fetch_inbound_errors(integrations, epoch_now)`, the error-log reply of
      each integration given with it. */
  method FetchInboundErrors(ps: seq<Probe<ErrorEntry>>, now: int) returns (r: Report)
    ensures r.older == Correlate(ps, now).older
    ensures r.recent.Keys == Correlate(ps, now).recent.Keys
    ensures forall n :: n in r.recent ==>
              var mine := RecentEntries(Observations(ps), n, now);
              r.recent[n].count == |mine| && Distinct(r.recent[n].reasons)
              && (forall x :: x in r.recent[n].reasons <==> x in ReasonsOf(mine))
  {
    var b := Correlate(ps, now);
    var recent := ListReasons(b.recent);
    forall n | n in recent
      ensures var mine := RecentEntries(Observations(ps), n, now);
              recent[n].count == |mine| && (forall x :: x in recent[n].reasons <==> x in ReasonsOf(mine))
    {
      RecentBuckets(ps, now, n);
    }
    r := Report(recent, b.older);
  }
}

=== FILE: inbound_integrations.dfy ===
/** The inbound integration listing: the BYOAPI integrations of four
    endpoints, deduplicated by id across all of them. */
module InboundIntegrations {
  import opened Values
  import opened Fetch
  import opened Integrations

  /** `BASE_URLS`, queried in this order. */
  const BaseUrls: seq<string> := [
    "https://api.moogsoft.ai/v1/integrations/byoapi",
    "https://api.moogsoft.ai/v1/integrations/byoapi?integration=DYNATRACE",
    "https://api.moogsoft.ai/v1/integrations/byoapi?integration=NAGIOS",
    "https://api.moogsoft.ai/v1/integrations/byoapi?integration=PROMETHEUS"]

  /** The items of the endpoints `urls` in order; an endpoint whose request
      raised or whose status is not "success" adds none. Items are read
      with `endpointName` as their name. */
  function Gathered(urls: seq<string>, fetch: string -> Reply<seq<Item>>): seq<Item>
    decreases |urls|
  {
    if urls == [] then []
    else (if Succeeded(fetch(urls[0])) then fetch(urls[0]).data else []) + Gathered(urls[1..], fetch)
  }

  lemma {:induction false} GatheredAppend(a: seq<string>, b: seq<string>, fetch: string -> Reply<seq<Item>>)
    ensures Gathered(a + b, fetch) == Gathered(a, fetch) + Gathered(b, fetch)
    decreases |a|
  {
    if a == [] {
      assert a + b == b;
    } else {
      assert (a + b)[0] == a[0] && (a + b)[1..] == a[1..] + b;
      GatheredAppend(a[1..], b, fetch);
      var head := if Succeeded(fetch(a[0])) then fetch(a[0]).data else [];
      assert head + (Gathered(a[1..], fetch) + Gathered(b, fetch))
          == (head + Gathered(a[1..], fetch)) + Gathered(b, fetch);
    }
  }

  /** An endpoint that fails is skipped, and the endpoints after it are
      still read. */
  lemma FailedUrlSkipped(a: seq<string>, u: string, b: seq<string>, fetch: string -> Reply<seq<Item>>)
    requires !Succeeded(fetch(u))
    ensures Gathered(a + [u] + b, fetch) == Gathered(a + b, fetch)
  {
    GatheredAppend(a + [u], b, fetch);
    GatheredAppend(a, [u], fetch);
    GatheredAppend(a, b, fetch);
    assert Gathered([u], fetch) == [] + Gathered([u][1..], fetch);
    assert Gathered(a, fetch) + [] == Gathered(a, fetch);
  }

  /** `fetch_inbound_integrations()`, the reply of each endpoint given by
      `fetch`: one entry per truthy id, first occurrence first, in endpoint
      order and then item order, and `total` the number of entries. */
  method FetchInboundIntegrations(fetch: string -> Reply<seq<Item>>) returns (l: Listing)
    ensures l.total == |l.integrations|
    ensures FirstOccurrences(Gathered(BaseUrls, fetch), l.integrations)
  {
    var items := Gathered(BaseUrls, fetch);
    var r := Dedup(items);
    l := Listing(|r|, r);
  }
}

=== FILE: incidents.dfy ===
/** The incident summariser: one forward pass over the incidents of a
    window, counting ticket creation, creation errors, priority upgrades
    and auto-resolution globally and per manager, and collecting three
    lists of workloads and sources that lack a configuration item. */
module Incidents {
  import opened Values
  import opened Tally
  import Fetch

  /** An incident as fetched: its `manager` (`None` when absent) and its
      `tags` (an absent or null tags object reads as empty). */
  datatype Incident = Incident(manager: Value, tags: map<string, Value>)

  /** `incident.get("manager") or "Unknown"`. */
  function ManagerKey(r: Incident): Value {
    Or(r.manager, Str("Unknown"))
  }

  function Workload(r: Incident): Value { Get(r.tags, "Workload") }
  function ConfigItem(r: Incident): Value { Get(r.tags, "cmdb_ci") }
  function Source(r: Incident): Value { Get(r.tags, "source") }

  /** The six counters kept globally and for every manager. */
  datatype Counters = Counters(
    total: nat,
    created: nat,
    creationErrors: nat,
    upgraded: nat,
    autoResolved: nat,
    notCreated: nat)
  {
    function At(f: Field): nat {
      match f
      case Total => total
      case Created => created
      case CreationErrors => creationErrors
      case Upgraded => upgraded
      case AutoResolved => autoResolved
      case NotCreated => notCreated
    }
  }

  /** Names of the six counters: `total_count`, `sn_inc_created`,
      `sn_creation_errors`, `priority_upgraded`, `auto_resolved`, `not_created_sn`. */
  datatype Field = Total | Created | CreationErrors | Upgraded | AutoResolved | NotCreated

  const Zero := Counters(0, 0, 0, 0, 0, 0)

  function Plus(a: Counters, b: Counters): Counters {
    Counters(a.total + b.total, a.created + b.created, a.creationErrors + b.creationErrors,
             a.upgraded + b.upgraded, a.autoResolved + b.autoResolved, a.notCreated + b.notCreated)
  }

  /** What one incident adds to the counters: each counter is an independent
      0/1 test on the tags, and exactly one of created / not created is set. */
  function Contribution(r: Incident): (c: Counters)
    ensures c.total == 1
    ensures c.created + c.notCreated == 1
    ensures c.created == 1 <==> !IsBlank(Get(r.tags, "SNOWInc"))
    ensures c.creationErrors == 1 <==> Get(r.tags, "SNOWIncidentCreated") == Str("error")
    ensures c.upgraded == 1 <==> !IsBlank(Get(r.tags, "upgraded"))
    ensures c.autoResolved == 1 <==> !IsBlank(Get(r.tags, "auto_close"))
  {
    var created := !IsBlank(Get(r.tags, "SNOWInc"));
    Counters(
      1,
      if created then 1 else 0,
      if Get(r.tags, "SNOWIncidentCreated") == Str("error") then 1 else 0,
      if !IsBlank(Get(r.tags, "upgraded")) then 1 else 0,
      if !IsBlank(Get(r.tags, "auto_close")) then 1 else 0,
      if created then 0 else 1)
  }

  /** The two workload lists: Dynatrace incidents, and incidents whose
      manager name contains "Splunk". */
  datatype Scan = DynatraceScan | SplunkScan

  /** The incident's Workload goes to the list of `scan`: the manager matches,
      `cmdb_ci` is blank and `Workload` is not. */
  predicate Matches(r: Incident, scan: Scan) {
    var k := ManagerKey(r);
    && IsBlank(ConfigItem(r))
    && !IsBlank(Workload(r))
    && match scan
       case DynatraceScan => k == Str("Dynatrace")
       case SplunkScan => k.Str? && Contains(k.s, "Splunk")
  }

  /** Both `cmdb_ci` and `Workload` are blank. */
  predicate IsUnmapped(r: Incident) {
    IsBlank(ConfigItem(r)) && IsBlank(Workload(r))
  }

  /** `cmdb_ci_blank_workload_blank`: how many incidents have neither tag, the
      distinct sources among them, and how many of them have no source either. */
  datatype Unmapped = Unmapped(count: nat, sources: set<Value>, noSource: nat)

  datatype Summary = Summary(
    counters: Counters,
    perManager: map<Value, Counters>,
    undiscovered: seq<Value>,
    unmapped: Unmapped,
    splunk: seq<Value>)

  const Empty := Summary(Zero, map[], [], Unmapped(0, {}, 0), [])

  function Bucket(pm: map<Value, Counters>, k: Value): Counters {
    if k in pm then pm[k] else Zero
  }

  /** The per-manager map once incident `r` has been counted under its manager. */
  function Charge(pm: map<Value, Counters>, r: Incident): map<Value, Counters> {
    var k := ManagerKey(r);
    pm[k := Plus(Bucket(pm, k), Contribution(r))]
  }

  /** The unmapped tally once incident `r` has been looked at. */
  function Note(u: Unmapped, r: Incident): Unmapped {
    var src := Source(r);
    if !IsUnmapped(r) then u
    else if !IsBlank(src) then Unmapped(u.count + 1, u.sources + {src}, u.noSource)
    else Unmapped(u.count + 1, u.sources, u.noSource + 1)
  }

  /** What incident `r` adds to the workload list of `scan`. */
  function Listed(r: Incident, scan: Scan): seq<Value> {
    if Matches(r, scan) then [Workload(r)] else []
  }

  /** One iteration of the loop over the incident list. */
  function Step(s: Summary, r: Incident): Summary {
    Summary(
      Plus(s.counters, Contribution(r)),
      Charge(s.perManager, r),
      s.undiscovered + Listed(r, DynatraceScan),
      Note(s.unmapped, r),
      s.splunk + Listed(r, SplunkScan))
  }

  /** The loop from state `s` over `rs`, front to back. */
  function Run(s: Summary, rs: seq<Incident>): Summary
    decreases |rs|
  {
    if rs == [] then s else Run(Step(s, rs[0]), rs[1..])
  }

  /** `summarize(incidents_list)` before its set is turned into a list. */
  function Summarize(rs: seq<Incident>): Summary {
    Run(Empty, rs)
  }

  // ---------------------------------------------------------------------
  // Reference definitions, stated record by record

  /** The contributions of the incidents, added up. */
  function Totals(rs: seq<Incident>): Counters {
    if rs == [] then Zero else Plus(Contribution(rs[0]), Totals(rs[1..]))
  }

  /** The incidents of manager `k`, in input order. */
  function OfManager(rs: seq<Incident>, k: Value): seq<Incident> {
    if rs == [] then []
    else (if ManagerKey(rs[0]) == k then [rs[0]] else []) + OfManager(rs[1..], k)
  }

  /** The managers the incidents belong to. */
  function Managers(rs: seq<Incident>): set<Value> {
    if rs == [] then {} else {ManagerKey(rs[0])} + Managers(rs[1..])
  }

  /** The Workload values of the incidents `scan` matches, in input order. */
  function Workloads(rs: seq<Incident>, scan: Scan): seq<Value> {
    if rs == [] then []
    else Listed(rs[0], scan) + Workloads(rs[1..], scan)
  }

  /** How many incidents lack both tags, and how many of those have a source. */
  function UnmappedCount(rs: seq<Incident>): nat {
    if rs == [] then 0 else (if IsUnmapped(rs[0]) then 1 else 0) + UnmappedCount(rs[1..])
  }

  function SourcedCount(rs: seq<Incident>): nat {
    if rs == [] then 0
    else (if IsUnmapped(rs[0]) && !IsBlank(Source(rs[0])) then 1 else 0) + SourcedCount(rs[1..])
  }

  /** The non-blank sources of the incidents that lack both tags. */
  function Sources(rs: seq<Incident>): set<Value> {
    if rs == [] then {}
    else (if IsUnmapped(rs[0]) && !IsBlank(Source(rs[0])) then {Source(rs[0])} else {}) + Sources(rs[1..])
  }

  /** Counter `f` of each manager, as a map to sum over. */
  function Column(pm: map<Value, Counters>, f: Field): map<Value, int> {
    map k | k in pm :: pm[k].At(f) as int
  }

  // ---------------------------------------------------------------------
  // Properties of the loop

  lemma PlusAssoc(a: Counters, b: Counters, c: Counters)
    ensures Plus(Plus(a, b), c) == Plus(a, Plus(b, c))
  {
  }

  lemma PlusZero(c: Counters)
    ensures Plus(Zero, c) == c
  {
  }

  lemma PlusAt(a: Counters, b: Counters, f: Field)
    ensures Plus(a, b).At(f) == a.At(f) + b.At(f)
  {
  }

  lemma {:induction false} ManagersAt(rs: seq<Incident>, k: Value)
    ensures k in Managers(rs) <==> exists i :: 0 <= i < |rs| && ManagerKey(rs[i]) == k
    decreases |rs|
  {
    if rs != [] {
      ManagersAt(rs[1..], k);
      if k in Managers(rs[1..]) {
        var i :| 0 <= i < |rs[1..]| && ManagerKey(rs[1..][i]) == k;
        assert rs[i + 1] == rs[1..][i];
      }
      if exists i :: 0 <= i < |rs| && ManagerKey(rs[i]) == k {
        var i :| 0 <= i < |rs| && ManagerKey(rs[i]) == k;
        if i > 0 {
          assert rs[1..][i - 1] == rs[i];
        }
      }
    }
  }

  lemma {:induction false} RunCounters(s: Summary, rs: seq<Incident>)
    ensures Run(s, rs).counters == Plus(s.counters, Totals(rs))
    decreases |rs|
  {
    if rs != [] {
      var s' := Step(s, rs[0]);
      RunCounters(s', rs[1..]);
      PlusAssoc(s.counters, Contribution(rs[0]), Totals(rs[1..]));
    }
  }

  lemma {:induction false} RunBucket(s: Summary, rs: seq<Incident>, k: Value)
    ensures Bucket(Run(s, rs).perManager, k) == Plus(Bucket(s.perManager, k), Totals(OfManager(rs, k)))
    decreases |rs|
  {
    if rs == [] {
      PlusZero(Bucket(s.perManager, k));
    } else {
      var s' := Step(s, rs[0]);
      var rest := OfManager(rs[1..], k);
      RunBucket(s', rs[1..], k);
      if ManagerKey(rs[0]) == k {
        assert Bucket(s'.perManager, k) == Plus(Bucket(s.perManager, k), Contribution(rs[0]));
        var mine := [rs[0]] + rest;
        assert OfManager(rs, k) == mine;
        assert mine[0] == rs[0] && mine[1..] == rest;
        assert Totals(mine) == Plus(Contribution(rs[0]), Totals(rest));
        PlusAssoc(Bucket(s.perManager, k), Contribution(rs[0]), Totals(rest));
      } else {
        assert Bucket(s'.perManager, k) == Bucket(s.perManager, k);
        assert OfManager(rs, k) == [] + rest;
        assert [] + rest == rest;
      }
    }
  }

  lemma {:induction false} RunKeys(s: Summary, rs: seq<Incident>)
    ensures Run(s, rs).perManager.Keys == s.perManager.Keys + Managers(rs)
    decreases |rs|
  {
    if rs != [] {
      var s' := Step(s, rs[0]);
      RunKeys(s', rs[1..]);
      StepKeys(s, rs[0]);
      UnionAssoc(s.perManager.Keys, {ManagerKey(rs[0])}, Managers(rs[1..]));
    }
  }

  lemma StepKeys(s: Summary, r: Incident)
    ensures Step(s, r).perManager.Keys == s.perManager.Keys + {ManagerKey(r)}
  {
  }

  lemma ColumnPut(pm: map<Value, Counters>, k: Value, c: Counters, f: Field)
    ensures Column(pm[k := c], f) == Column(pm, f)[k := c.At(f) as int]
  {
  }

  lemma {:induction false} RunColumnSum(s: Summary, rs: seq<Incident>, f: Field)
    ensures Sum(Column(Run(s, rs).perManager, f)) - Run(s, rs).counters.At(f)
         == Sum(Column(s.perManager, f)) - s.counters.At(f)
    decreases |rs|
  {
    if rs != [] {
      var k := ManagerKey(rs[0]);
      var c := Contribution(rs[0]);
      var b := Bucket(s.perManager, k);
      ColumnPut(s.perManager, k, Plus(b, c), f);
      SumPut(Column(s.perManager, f), k, Plus(b, c).At(f));
      PlusAt(b, c, f);
      PlusAt(s.counters, c, f);
      RunColumnSum(Step(s, rs[0]), rs[1..], f);
    }
  }

  lemma {:induction false} RunWorkloads(s: Summary, rs: seq<Incident>)
    ensures Run(s, rs).undiscovered == s.undiscovered + Workloads(rs, DynatraceScan)
    ensures Run(s, rs).splunk == s.splunk + Workloads(rs, SplunkScan)
    decreases |rs|
  {
    if rs != [] {
      var s' := Step(s, rs[0]);
      RunWorkloads(s', rs[1..]);
      AppendAssoc(s.undiscovered, Listed(rs[0], DynatraceScan), Workloads(rs[1..], DynatraceScan));
      AppendAssoc(s.splunk, Listed(rs[0], SplunkScan), Workloads(rs[1..], SplunkScan));
    } else {
      assert s.undiscovered + [] == s.undiscovered;
      assert s.splunk + [] == s.splunk;
    }
  }

  lemma {:induction false} RunUnmapped(s: Summary, rs: seq<Incident>)
    ensures Run(s, rs).unmapped.count == s.unmapped.count + UnmappedCount(rs)
    ensures Run(s, rs).unmapped.noSource + SourcedCount(rs) == s.unmapped.noSource + UnmappedCount(rs)
    decreases |rs|
  {
    if rs != [] {
      RunUnmapped(Step(s, rs[0]), rs[1..]);
    }
  }

  lemma StepSources(s: Summary, r: Incident)
    ensures Step(s, r).unmapped.sources
         == s.unmapped.sources + (if IsUnmapped(r) && !IsBlank(Source(r)) then {Source(r)} else {})
  {
  }

  lemma {:induction false} RunSources(s: Summary, rs: seq<Incident>)
    ensures Run(s, rs).unmapped.sources == s.unmapped.sources + Sources(rs)
    decreases |rs|
  {
    if rs != [] {
      var r := rs[0];
      RunSources(Step(s, r), rs[1..]);
      StepSources(s, r);
      UnionAssoc(s.unmapped.sources,
                 if IsUnmapped(r) && !IsBlank(Source(r)) then {Source(r)} else {},
                 Sources(rs[1..]));
    }
  }

  lemma {:induction false} TotalsPartition(rs: seq<Incident>)
    ensures Totals(rs).total == |rs|
    ensures Totals(rs).created + Totals(rs).notCreated == |rs|
  {
    if rs != [] {
      TotalsPartition(rs[1..]);
    }
  }

  /** The global counters are the incidents' contributions added up: each
      counts the incidents whose test for it holds, the total counts every
      incident, and ticket created / not created partition them. */
  lemma GlobalCounters(rs: seq<Incident>)
    ensures Summarize(rs).counters == Totals(rs)
    ensures Summarize(rs).counters.total == |rs|
    ensures Summarize(rs).counters.created + Summarize(rs).counters.notCreated == |rs|
  {
    RunCounters(Empty, rs);
    PlusZero(Totals(rs));
    TotalsPartition(rs);
  }

  /** A manager has a bucket exactly when some incident belongs to it, and
      its counters are the contributions of its own incidents only. A
      missing or falsy manager is bucketed as "Unknown". */
  lemma PerManager(rs: seq<Incident>, k: Value)
    ensures k in Summarize(rs).perManager <==> exists i :: 0 <= i < |rs| && ManagerKey(rs[i]) == k
    ensures k in Summarize(rs).perManager ==> Summarize(rs).perManager[k] == Totals(OfManager(rs, k))
  {
    RunKeys(Empty, rs);
    ManagersAt(rs, k);
    RunBucket(Empty, rs, k);
    PlusZero(Totals(OfManager(rs, k)));
  }

  /** For every counter, the per-manager values add up to the global value. */
  lemma PerManagerAddsUp(rs: seq<Incident>, f: Field)
    ensures Sum(Column(Summarize(rs).perManager, f)) == Summarize(rs).counters.At(f)
  {
    RunColumnSum(Empty, rs, f);
    assert Column(Empty.perManager, f) == map[];
  }

  /** The two workload lists hold, in input order, the Workload of every
      incident that matches their scan, and nothing else. */
  lemma WorkloadLists(rs: seq<Incident>)
    ensures Summarize(rs).undiscovered == Workloads(rs, DynatraceScan)
    ensures Summarize(rs).splunk == Workloads(rs, SplunkScan)
  {
    RunWorkloads(Empty, rs);
  }

  /** The unmapped count is the incidents with neither tag; those without a
      source are counted apart, and the set holds exactly the other sources. */
  lemma UnmappedBreakdown(rs: seq<Incident>)
    ensures Summarize(rs).unmapped.count == UnmappedCount(rs)
    ensures Summarize(rs).unmapped.count == Summarize(rs).unmapped.noSource + SourcedCount(rs)
    ensures Summarize(rs).unmapped.sources == Sources(rs)
  {
    RunUnmapped(Empty, rs);
    RunSources(Empty, rs);
  }

  /** A manager that only contains "Splunk" matches the Splunk scan, and
      "Dynatrace" is matched by equality only. */
  lemma SplunkIsSubstringMatch()
    ensures var r := Incident(Str("My-Splunk-2"), map["Workload" := Str("w1")]);
            Matches(r, SplunkScan) && !Matches(r, DynatraceScan)
    ensures !Matches(Incident(Str("Dynatrace EU"), map["Workload" := Str("w1")]), DynatraceScan)
  {
    var s := "My-Splunk-2";
    assert "Splunk" <= s[3..];
    ContainsFrom(s, "Splunk", 3);
  }

  // ---------------------------------------------------------------------
  // The published form and the aggregation over two windows

  /** The summary as returned: the set of sources has become a list. */
  datatype Published = Published(
    counters: Counters,
    perManager: map<Value, Counters>,
    undiscovered: seq<Value>,
    unmappedCount: nat,
    sourceTags: seq<Value>,
    noSourceCount: nat,
    splunk: seq<Value>)

  /** `p` is `s` with its set of sources listed once each, in some order. */
  ghost predicate Publishes(p: Published, s: Summary) {
    && p.counters == s.counters
    && p.perManager == s.perManager
    && p.undiscovered == s.undiscovered
    && p.unmappedCount == s.unmapped.count
    && p.noSourceCount == s.unmapped.noSource
    && p.splunk == s.splunk
    && (forall v :: v in p.sourceTags <==> v in s.unmapped.sources)
    && Distinct(p.sourceTags)
  }

  /** `convert_sets_to_lists` on a summary: its one set becomes a list. */
  method Publish(s: Summary) returns (p: Published)
    ensures Publishes(p, s)
  {
    var tags := SetToList(s.unmapped.sources);
    p := Published(s.counters, s.perManager, s.undiscovered, s.unmapped.count,
                   tags, s.unmapped.noSource, s.splunk);
  }

  datatype Report = Report(thisMonth: Published, last24h: Published)

  /** `fetch_incidents_since`: the search-after loop over the incident search. */
  method FetchIncidentsSince(pages: seq<Fetch.Page<Incident>>) returns (r: Result<seq<Incident>>)
    ensures r.Raised? <==> Fetch.FetchFails(pages)
    ensures r.Ok? ==> r.value == Fetch.Fetched(pages)
  {
    r := Fetch.FetchSince(pages);
  }

  /** `aggregate_incidents`: fetch both windows (a failing fetch raises),
      then summarise each window from its own list only. */
  method AggregateIncidents(monthPages: seq<Fetch.Page<Incident>>, dayPages: seq<Fetch.Page<Incident>>)
    returns (r: Result<Report>)
    ensures r.Raised? <==> Fetch.FetchFails(monthPages) || Fetch.FetchFails(dayPages)
    ensures r.Ok? ==> Publishes(r.value.thisMonth, Summarize(Fetch.Fetched(monthPages)))
    ensures r.Ok? ==> Publishes(r.value.last24h, Summarize(Fetch.Fetched(dayPages)))
  {
    var month := FetchIncidentsSince(monthPages);
    if month.Raised? {
      return Raised;
    }
    var day := FetchIncidentsSince(dayPages);
    if day.Raised? {
      return Raised;
    }
    var m := Publish(Summarize(month.value));
    var d := Publish(Summarize(day.value));
    r := Ok(Report(m, d));
  }
}

=== FILE: integrations.dfy ===
/** The id-deduplication both integration listings perform: keep the first
    item for every truthy id, in input order. */
module Integrations {
  import opened Values

  /** An item of an integration listing: its `id` (`None` when absent) and
      its display name (`None` when the key is absent). */
  datatype Item = Item(id: Value, name: Option<Value>)

  /** A listed integration: `{"name": ..., "id": ...}`. */
  datatype Integration = Integration(name: Value, id: Value)

  /** The listing entry for an item: a missing name reads "Unknown". */
  function Listed(it: Item): Integration {
    Integration(it.name.GetOr(Str("Unknown")), it.id)
  }

  /** Index of the first item carrying id `x`, or `|items|` if none does. */
  function FirstIndex(items: seq<Item>, x: Value): (n: nat)
    ensures n <= |items|
    ensures n < |items| ==> items[n].id == x
    ensures forall k :: 0 <= k < n ==> items[k].id != x
    decreases |items|
  {
    if items == [] then 0
    else if items[0].id == x then 0
    else 1 + FirstIndex(items[1..], x)
  }

  /** No id occurs twice in the listing. */
  predicate DistinctIds(r: seq<Integration>) {
    forall j, k :: 0 <= j < k < |r| ==> r[j].id != r[k].id
  }

  /** `seen` holds exactly the ids listed in `r`, which are the truthy ids
      among the first `i` items. */
  ghost predicate SeenExactly(items: seq<Item>, i: nat, r: seq<Integration>, seen: set<Value>) {
    && (forall x :: x in seen <==> exists j :: 0 <= j < |r| && r[j].id == x)
    && (forall x :: x in seen <==> Truthy(x) && FirstIndex(items, x) < i)
  }

  /** Each id of `r` is listed once, from its first item among the first
      `i`, in order of first appearance. */
  ghost predicate ListedInOrder(items: seq<Item>, i: nat, r: seq<Integration>) {
    && i <= |items|
    && DistinctIds(r)
    && (forall j :: 0 <= j < |r| ==> Truthy(r[j].id))
    && (forall j :: 0 <= j < |r| ==>
          FirstIndex(items, r[j].id) < i && r[j] == Listed(items[FirstIndex(items, r[j].id)]))
    && (forall j, k :: 0 <= j < k < |r| ==> FirstIndex(items, r[j].id) < FirstIndex(items, r[k].id))
  }

  /** What the loop keeps true after the first `i` items. */
  ghost predicate Invariant(items: seq<Item>, i: nat, r: seq<Integration>, seen: set<Value>) {
    SeenExactly(items, i, r, seen) && ListedInOrder(items, i, r)
  }

  lemma SeenNew(items: seq<Item>, i: nat, r: seq<Integration>, seen: set<Value>)
    requires i < |items| && SeenExactly(items, i, r, seen)
    requires Truthy(items[i].id) && items[i].id !in seen
    ensures SeenExactly(items, i + 1, r + [Listed(items[i])], seen + {items[i].id})
  {
    var r' := r + [Listed(items[i])];
    assert FirstIndex(items, items[i].id) == i;
    assert r'[|r|].id == items[i].id;
    assert forall j :: 0 <= j < |r| ==> r'[j] == r[j];
  }

  lemma OrderNew(items: seq<Item>, i: nat, r: seq<Integration>, seen: set<Value>)
    requires i < |items| && SeenExactly(items, i, r, seen) && ListedInOrder(items, i, r)
    requires Truthy(items[i].id) && items[i].id !in seen
    ensures ListedInOrder(items, i + 1, r + [Listed(items[i])])
  {
    var x := items[i].id;
    var r' := r + [Listed(items[i])];
    assert FirstIndex(items, x) == i;
    forall j | 0 <= j < |r| ensures r'[j] == r[j] && r[j].id != x && FirstIndex(items, r[j].id) < i {
      assert r[j].id in seen;
    }
    assert r'[|r|] == Listed(items[i]);
    forall j, k | 0 <= j < k < |r'| ensures r'[j].id != r'[k].id && FirstIndex(items, r'[j].id) < FirstIndex(items, r'[k].id) {
      if k == |r| {
        assert r'[j].id == r[j].id;
      } else {
        assert r'[j] == r[j] && r'[k] == r[k];
      }
    }
  }

  /** An item whose id is truthy and unseen is listed, and the invariant holds one item further. */
  lemma ListNew(items: seq<Item>, i: nat, r: seq<Integration>, seen: set<Value>)
    requires Invariant(items, i, r, seen) && i < |items|
    requires Truthy(items[i].id) && items[i].id !in seen
    ensures Invariant(items, i + 1, r + [Listed(items[i])], seen + {items[i].id})
  {
    SeenNew(items, i, r, seen);
    OrderNew(items, i, r, seen);
  }

  /** Any other item is skipped, and the invariant holds one item further. */
  lemma SkipItem(items: seq<Item>, i: nat, r: seq<Integration>, seen: set<Value>)
    requires Invariant(items, i, r, seen) && i < |items|
    requires !Truthy(items[i].id) || items[i].id in seen
    ensures Invariant(items, i + 1, r, seen)
  {
    if Truthy(items[i].id) {
      assert FirstIndex(items, items[i].id) < i;
    }
  }

  /** `r` lists, once each and in order of first appearance, every truthy
      id of `items`, each with the name of the first item carrying it. */
  ghost predicate FirstOccurrences(items: seq<Item>, r: seq<Integration>) {
    && DistinctIds(r)
    && (forall j :: 0 <= j < |r| ==> Truthy(r[j].id))
    && (forall x :: (exists j :: 0 <= j < |r| && r[j].id == x) <==> Truthy(x) && FirstIndex(items, x) < |items|)
    && (forall j :: 0 <= j < |r| ==>
          FirstIndex(items, r[j].id) < |items| && r[j] == Listed(items[FirstIndex(items, r[j].id)]))
    && (forall j, k :: 0 <= j < k < |r| ==> FirstIndex(items, r[j].id) < FirstIndex(items, r[k].id))
  }

  /** The loop over the items with its `seen_ids` set: an item is listed
      when its id is truthy and not seen before. */
  method Dedup(items: seq<Item>) returns (r: seq<Integration>)
    ensures FirstOccurrences(items, r)
  {
    var seen: set<Value> := {};
    r := [];
    var i := 0;
    while i < |items|
      invariant Invariant(items, i, r, seen)
    {
      var it := items[i];
      if Truthy(it.id) && it.id !in seen {
        ListNew(items, i, r, seen);
        r := r + [Listed(it)];
        seen := seen + {it.id};
      } else {
        SkipItem(items, i, r, seen);
      }
      i := i + 1;
    }
  }

  /** The listing as returned: `total` and the integrations. */
  datatype Listing = Listing(total: nat, integrations: seq<Integration>)
}

=== FILE: maintenance.dfy ===
/** The maintenance report section: merge the active windows and the expired
    occurrences into one lookup keyed by window id, enrich every alert
    fetched under maintenance from that lookup, count alerts per month and
    manager, and pick the ten newest dated alerts for the detail lines. */
module Maintenance {
  import opened Values
  import opened Tally
  import Fetch
  import Ranking

  // ---------------------------------------------------------------------
  // The window lookup

  /** A maintenance window or expired occurrence as fetched; an absent field
      reads as `None` (`m.get(field)`). */
  datatype Window = Window(
    id: Value,
    name: Value,
    description: Value,
    status: Value,
    start: Value,
    duration: Value)

  /** One lookup entry. */
  datatype Entry = Entry(name: Value, description: Value, status: Value, start: Value, duration: Value)

  datatype Field = Name | Description | Status | Start | Duration

  function FieldOf(w: Window, f: Field): Value {
    match f
    case Name => w.name
    case Description => w.description
    case Status => w.status
    case Start => w.start
    case Duration => w.duration
  }

  function EntryAt(e: Entry, f: Field): Value {
    match f
    case Name => e.name
    case Description => e.description
    case Status => e.status
    case Start => e.start
    case Duration => e.duration
  }

  /** The value a field falls back to when no record supplies a truthy one. */
  function Placeholder(f: Field): Value {
    match f
    case Name => Str("(no name)")
    case Description => Str("(no description)")
    case _ => Null
  }

  /** `maint_lookup.get(mid, {})` read field by field: no entry reads as all `None`. */
  function Existing(lookup: map<Value, Entry>, k: Value): Entry {
    if k in lookup then lookup[k] else Entry(Null, Null, Null, Null, Null)
  }

  /** The entry written for record `m` over the existing entry `ex`: per
      field, the record's truthy value, else the existing one, else the
      placeholder. */
  function Combine(ex: Entry, m: Window): Entry {
    Entry(
      Or(Or(m.name, ex.name), Str("(no name)")),
      Or(Or(m.description, ex.description), Str("(no description)")),
      Or(m.status, ex.status),
      Or(m.start, ex.start),
      Or(m.duration, ex.duration))
  }

  /** One iteration of the merge loop: a record with a falsy id is skipped. */
  function Merge(lookup: map<Value, Entry>, m: Window): map<Value, Entry> {
    if !Truthy(m.id) then lookup
    else lookup[m.id := Combine(Existing(lookup, m.id), m)]
  }

  /** The lookup after the loop over `ws` (active windows, then expired occurrences). */
  function Merged(ws: seq<Window>): map<Value, Entry>
    decreases |ws|
  {
    if ws == [] then map[] else Merge(Merged(ws[..|ws| - 1]), ws[|ws| - 1])
  }

  /** The truthy value of field `f` in the last record with id `k`, or `None`. */
  function Latest(ws: seq<Window>, k: Value, f: Field): Value
    decreases |ws|
  {
    if ws == [] then Null
    else
      var w := ws[|ws| - 1];
      if w.id == k && Truthy(FieldOf(w, f)) then FieldOf(w, f) else Latest(ws[..|ws| - 1], k, f)
  }

  lemma {:induction false} LatestTruthyOrNull(ws: seq<Window>, k: Value, f: Field)
    ensures Truthy(Latest(ws, k, f)) || Latest(ws, k, f) == Null
    decreases |ws|
  {
    if ws != [] {
      LatestTruthyOrNull(ws[..|ws| - 1], k, f);
    }
  }

  /** Whether some record carries id `k`. */
  predicate HasId(ws: seq<Window>, k: Value) {
    exists i :: 0 <= i < |ws| && ws[i].id == k
  }

  lemma HasIdLast(ws: seq<Window>, k: Value)
    requires ws != []
    ensures HasId(ws, k) <==> HasId(ws[..|ws| - 1], k) || ws[|ws| - 1].id == k
  {
    var init := ws[..|ws| - 1];
    if HasId(ws, k) && ws[|ws| - 1].id != k {
      var i :| 0 <= i < |ws| && ws[i].id == k;
      assert init[i] == ws[i];
    }
    if HasId(init, k) {
      var i :| 0 <= i < |init| && init[i].id == k;
      assert ws[i] == init[i];
    }
  }

  /** The lookup keys are exactly the truthy ids of the records. */
  lemma {:induction false} LookupKeys(ws: seq<Window>, k: Value)
    ensures k in Merged(ws) <==> Truthy(k) && HasId(ws, k)
    decreases |ws|
  {
    if ws != [] {
      LookupKeys(ws[..|ws| - 1], k);
      HasIdLast(ws, k);
    }
  }

  /** Written field by field, `Combine` is one rule: the record's truthy
      value, else the existing one, else the placeholder. */
  lemma CombineAt(ex: Entry, m: Window, f: Field)
    requires Truthy(EntryAt(ex, f)) || EntryAt(ex, f) == Null
    ensures EntryAt(Combine(ex, m), f) == Or(Or(FieldOf(m, f), EntryAt(ex, f)), Placeholder(f))
  {
  }

  lemma OrAgain(a: Value, p: Value)
    ensures Or(Or(a, p), p) == Or(a, p)
  {
  }

  /** Every field of an entry is the truthy value of the last record with
      that id that has one, or else the field's placeholder. */
  lemma {:induction false} LookupFields(ws: seq<Window>, k: Value, f: Field)
    requires k in Merged(ws)
    ensures EntryAt(Merged(ws)[k], f) == Or(Latest(ws, k, f), Placeholder(f))
    decreases |ws|
  {
    var init := ws[..|ws| - 1];
    var w := ws[|ws| - 1];
    var before := Merged(init);
    LookupKeys(ws, k);
    if w.id == k {
      var ex := Existing(before, k);
      if k in before {
        LookupFields(init, k, f);
        LatestTruthyOrNull(init, k, f);
        CombineAt(ex, w, f);
        if !Truthy(FieldOf(w, f)) {
          OrAgain(Latest(init, k, f), Placeholder(f));
        }
      } else {
        CombineAt(ex, w, f);
        LookupKeys(init, k);
        NoIdNoLatest(init, k, f);
      }
    } else {
      LookupFields(init, k, f);
    }
  }

  lemma {:induction false} NoIdNoLatest(ws: seq<Window>, k: Value, f: Field)
    requires !HasId(ws, k)
    ensures Latest(ws, k, f) == Null
    decreases |ws|
  {
    if ws != [] {
      HasIdLast(ws, k);
      NoIdNoLatest(ws[..|ws| - 1], k, f);
    }
  }

  /** Every entry has a non-empty name and description. */
  lemma EntriesNamed(ws: seq<Window>, k: Value)
    requires k in Merged(ws)
    ensures Truthy(Merged(ws)[k].name) && Truthy(Merged(ws)[k].description)
  {
    LookupFields(ws, k, Name);
    LookupFields(ws, k, Description);
  }

  /** The status, start and duration are the last truthy values supplied,
      with no placeholder: `None` when no record supplied one. */
  lemma UnnamedFieldsMayBeNull(ws: seq<Window>, k: Value)
    requires k in Merged(ws)
    ensures Merged(ws)[k].status == Latest(ws, k, Status)
    ensures Merged(ws)[k].start == Latest(ws, k, Start)
    ensures Merged(ws)[k].duration == Latest(ws, k, Duration)
  {
    LookupFields(ws, k, Status);
    LatestTruthyOrNull(ws, k, Status);
    LookupFields(ws, k, Start);
    LatestTruthyOrNull(ws, k, Start);
    LookupFields(ws, k, Duration);
    LatestTruthyOrNull(ws, k, Duration);
  }

  lemma {:induction false} LatestAppend(a: seq<Window>, e: seq<Window>, k: Value, f: Field)
    ensures Latest(a + e, k, f) == if Latest(e, k, f) != Null then Latest(e, k, f) else Latest(a, k, f)
    decreases |e|
  {
    if e == [] {
      assert a + e == a;
    } else {
      assert (a + e)[..|a + e| - 1] == a + e[..|e| - 1];
      assert (a + e)[|a + e| - 1] == e[|e| - 1];
      LatestAppend(a, e[..|e| - 1], k, f);
    }
  }

  /** Expired occurrences are merged after the active windows, so a truthy
      field of an expired occurrence overrides the active window's value. */
  lemma ExpiredWins(active: seq<Window>, expired: seq<Window>, k: Value, f: Field)
    requires k in Merged(active + expired)
    requires Latest(expired, k, f) != Null
    ensures EntryAt(Merged(active + expired)[k], f) == Or(Latest(expired, k, f), Placeholder(f))
  {
    LookupFields(active + expired, k, f);
    LatestAppend(active, expired, k, f);
  }

  /** The merge is not commutative: the later of two names wins. */
  lemma MergeNotCommutative()
    ensures var a := Window(Int(1), Str("A"), Null, Null, Null, Null);
            var b := Window(Int(1), Str("B"), Null, Null, Null, Null);
            && Merged([a, b])[Int(1)].name == Str("B")
            && Merged([b, a])[Int(1)].name == Str("A")
  {
    var a := Window(Int(1), Str("A"), Null, Null, Null, Null);
    var b := Window(Int(1), Str("B"), Null, Null, Null, Null);
    assert [a, b][..1] == [a];
    assert [b, a][..1] == [b];
  }

  /** A window with a name and no status followed by one with a status and
      no name gives an entry with both. */
  lemma CoalesceExample()
    ensures var a := Window(Int(1), Str("A"), Null, Null, Null, Null);
            var b := Window(Int(1), Null, Null, Str("active"), Null, Null);
            Merged([a, b]) == map[Int(1) := Entry(Str("A"), Str("(no description)"), Str("active"), Null, Null)]
  {
    var a := Window(Int(1), Str("A"), Null, Null, Null, Null);
    var b := Window(Int(1), Null, Null, Str("active"), Null, Null);
    assert [a, b][..1] == [a];
    assert [a][..0] == [];
    assert Merged([a]) == map[Int(1) := Entry(Str("A"), Str("(no description)"), Null, Null, Null)];
  }

  // ---------------------------------------------------------------------
  // Enrichment

  /** An alert fetched under maintenance. `alertId` and `manager` are `None`
      when the key is absent; `createdAt` and `maintenance` read as `None`
      when absent; an absent `tags` object reads as empty. */
  datatype MAlert = MAlert(
    alertId: Option<Value>,
    manager: Option<Value>,
    createdAt: Value,
    maintenance: Value,
    tags: map<string, Value>)

  /** `isinstance(created_at, (int, float))`: a `bool` is an `int` in Python. */
  predicate Dated(a: MAlert) {
    a.createdAt.Int? || a.createdAt.Bool?
  }

  function EpochOf(v: Value): int {
    match v
    case Int(n) => n
    case Bool(b) => if b then 1 else 0
    case _ => 0
  }

  /** The creation time in epoch seconds, when the alert has one. The local
      date derived from it is this time shifted by a fixed offset, so it
      orders alerts the same way. */
  function Created(a: MAlert): Option<int> {
    if Dated(a) then Some(EpochOf(a.createdAt)) else None
  }

  function AlertManager(a: MAlert): Value {
    a.manager.GetOr(Str("Unknown"))
  }

  /** `str(maintenance)` unless the alert carries no maintenance id. */
  function MaintenanceId(a: MAlert): Option<string> {
    if a.maintenance == Null then None else Some(Render(a.maintenance))
  }

  /** One line of the detail list. */
  datatype Enriched = Enriched(
    alertId: Value,
    manager: Value,
    created: Option<int>,
    maintenanceId: Option<string>,
    name: Value,
    description: Value,
    status: Value,
    ci: Value)

  /** Whether the lookup has an entry for the alert's stringified id. */
  predicate Found(lookup: map<Value, Entry>, a: MAlert) {
    MaintenanceId(a).Some? && Str(MaintenanceId(a).value) in lookup
  }

  function Enrich(lookup: map<Value, Entry>, a: MAlert): Enriched {
    var found := Found(lookup, a);
    var entry := if found then lookup[Str(MaintenanceId(a).value)] else Entry(Null, Null, Null, Null, Null);
    Enriched(
      a.alertId.GetOr(Str("<missing_alert_id>")),
      AlertManager(a),
      Created(a),
      MaintenanceId(a),
      if found then entry.name else Str("(unknown)"),
      if found then entry.description else Str(""),
      entry.status,
      if "configurationItem" in a.tags then a.tags["configurationItem"] else Str("(none)"))
  }

  function EnrichAll(lookup: map<Value, Entry>, alerts: seq<MAlert>): (r: seq<Enriched>)
    ensures |r| == |alerts|
    ensures forall i :: 0 <= i < |alerts| ==> r[i] == Enrich(lookup, alerts[i])
    decreases |alerts|
  {
    if alerts == [] then [] else [Enrich(lookup, alerts[0])] + EnrichAll(lookup, alerts[1..])
  }

  /** An alert whose id is missing or has no entry gets the placeholders
      "(unknown)", "" and no status; one that is found gets its entry's
      name, description and status. */
  lemma EnrichDefaults(ws: seq<Window>, a: MAlert)
    ensures !Found(Merged(ws), a) ==>
              var e := Enrich(Merged(ws), a);
              e.name == Str("(unknown)") && e.description == Str("") && e.status == Null
    ensures Found(Merged(ws), a) ==>
              var k := Str(MaintenanceId(a).value);
              var e := Enrich(Merged(ws), a);
              && e.name == Or(Latest(ws, k, Name), Str("(no name)"))
              && e.description == Or(Latest(ws, k, Description), Str("(no description)"))
              && e.status == Latest(ws, k, Status)
  {
    if Found(Merged(ws), a) {
      var k := Str(MaintenanceId(a).value);
      LookupFields(ws, k, Name);
      LookupFields(ws, k, Description);
      UnnamedFieldsMayBeNull(ws, k);
    }
  }

  /** Whatever happens, an enriched line has a non-empty maintenance name. */
  lemma EnrichedNamed(ws: seq<Window>, a: MAlert)
    ensures Truthy(Enrich(Merged(ws), a).name)
  {
    if Found(Merged(ws), a) {
      EntriesNamed(ws, Str(MaintenanceId(a).value));
    }
  }

  /** The lookup is keyed by the raw id while alerts are looked up by the
      string form of theirs: when every window id is an integer, no alert
      is ever matched. */
  lemma IntegerIdsNeverMatch(ws: seq<Window>, a: MAlert)
    requires forall i :: 0 <= i < |ws| ==> ws[i].id.Int?
    ensures !Found(Merged(ws), a)
    ensures Enrich(Merged(ws), a).name == Str("(unknown)")
  {
    if MaintenanceId(a).Some? {
      var k := Str(MaintenanceId(a).value);
      LookupKeys(ws, k);
    }
  }

  // ---------------------------------------------------------------------
  // Monthly counts

  /** `month_str`: the month of the creation date, or "Unknown". The month
      name is locale formatting and is taken as an opaque function. */
  function MonthOf(a: MAlert, monthName: int -> string): string {
    if Dated(a) then monthName(EpochOf(a.createdAt)) else "Unknown"
  }

  /** One cell per (month, manager) pair: `monthly_manager_counts[month][manager]`. */
  type Cells = map<(string, Value), int>

  function Bump(cells: Cells, c: (string, Value)): Cells {
    cells[c := (if c in cells then cells[c] else 0) + 1]
  }

  function CountMonths(cells: Cells, alerts: seq<MAlert>, monthName: int -> string): Cells
    decreases |alerts|
  {
    if alerts == [] then cells
    else CountMonths(Bump(cells, (MonthOf(alerts[0], monthName), AlertManager(alerts[0]))), alerts[1..], monthName)
  }

  /** The alerts of one (month, manager) cell. */
  function InCell(alerts: seq<MAlert>, c: (string, Value), monthName: int -> string): nat {
    if alerts == [] then 0
    else (if (MonthOf(alerts[0], monthName), AlertManager(alerts[0])) == c then 1 else 0)
         + InCell(alerts[1..], c, monthName)
  }

  lemma {:induction false} RunCell(cells: Cells, alerts: seq<MAlert>, c: (string, Value), monthName: int -> string)
    ensures var out := CountMonths(cells, alerts, monthName);
            (c in out <==> c in cells || InCell(alerts, c, monthName) > 0)
            && (if c in out then out[c] else 0) == (if c in cells then cells[c] else 0) + InCell(alerts, c, monthName)
    decreases |alerts|
  {
    if alerts != [] {
      RunCell(Bump(cells, (MonthOf(alerts[0], monthName), AlertManager(alerts[0]))), alerts[1..], c, monthName);
    }
  }

  lemma {:induction false} RunCellsSum(cells: Cells, alerts: seq<MAlert>, monthName: int -> string)
    ensures Sum(CountMonths(cells, alerts, monthName)) == Sum(cells) + |alerts|
    decreases |alerts|
  {
    if alerts != [] {
      var c := (MonthOf(alerts[0], monthName), AlertManager(alerts[0]));
      SumPut(cells, c, (if c in cells then cells[c] else 0) + 1);
      RunCellsSum(Bump(cells, c), alerts[1..], monthName);
    }
  }

  /** A cell exists only for a month and manager that some alert has, it
      counts those alerts, and the cells add up to the number of alerts. */
  lemma MonthlyCounts(alerts: seq<MAlert>, monthName: int -> string, c: (string, Value))
    ensures var cells := CountMonths(map[], alerts, monthName);
            && (c in cells <==> InCell(alerts, c, monthName) > 0)
            && (c in cells ==> cells[c] == InCell(alerts, c, monthName))
            && Sum(cells) == |alerts|
  {
    RunCell(map[], alerts, c, monthName);
    RunCellsSum(map[], alerts, monthName);
  }

  // ---------------------------------------------------------------------
  // The detail lines

  /** `alerts_with_date`: the enriched lines with a creation date, in order. */
  function WithDate(es: seq<Enriched>): (r: seq<Enriched>)
    ensures forall i :: 0 <= i < |r| ==> r[i].created.Some?
    ensures multiset(r) <= multiset(es)
    decreases |es|
  {
    if es == [] then []
    else
      assert es == [es[0]] + es[1..];
      (if es[0].created.Some? then [es[0]] else []) + WithDate(es[1..])
  }

  /** The filter keeps every dated line, as often as it occurs, and no
      undated one. */
  lemma {:induction false} WithDateKeepsDated(es: seq<Enriched>)
    ensures forall e: Enriched :: e.created.Some? ==> multiset(WithDate(es))[e] == multiset(es)[e]
    ensures forall e: Enriched :: e.created.None? ==> e !in WithDate(es)
    decreases |es|
  {
    if es != [] {
      WithDateKeepsDated(es[1..]);
      assert es == [es[0]] + es[1..];
    }
  }

  function CreatedKey(e: Enriched): int {
    e.created.GetOr(0)
  }

  /** `alerts_with_date` sorted newest first, cut to ten lines. */
  function Newest(es: seq<Enriched>): seq<Enriched> {
    Ranking.Prefix(Ranking.SortDesc(WithDate(es), CreatedKey), 10)
  }

  /** Ten lines, or every dated line when fewer are dated; every one dated
      and taken from the enriched list, newest first, and no dated line left
      out is newer than one kept. */
  lemma NewestTen(es: seq<Enriched>)
    ensures |Newest(es)| == if |WithDate(es)| < 10 then |WithDate(es)| else 10
    ensures forall i :: 0 <= i < |Newest(es)| ==> Newest(es)[i].created.Some?
    ensures multiset(Newest(es)) <= multiset(es)
    ensures Ranking.Descending(Newest(es), CreatedKey)
    ensures var sorted := Ranking.SortDesc(WithDate(es), CreatedKey);
            forall i, j :: 0 <= i < |Newest(es)| <= j < |sorted| ==> CreatedKey(sorted[j]) <= CreatedKey(Newest(es)[i])
  {
    var dated := WithDate(es);
    var top := Newest(es);
    Ranking.TopAreLargest(dated, CreatedKey, 10);
    forall i | 0 <= i < |top| ensures top[i].created.Some? {
      assert top[i] in multiset(dated);
    }
  }

  // ---------------------------------------------------------------------
  // The section

  /** The section's content once computed, or the failure message. */
  datatype Section =
    | Failed
    | Section(lookup: map<Value, Entry>, enriched: seq<Enriched>, months: Cells, newest: seq<Enriched>)

  /** `get_report_section`: any fetch that raises, or an alert page whose
      status is not "success", turns the whole section into the failure
      message; otherwise the lookup, the enriched alerts, the month counts
      and the newest ten lines. */
  method ReportSection(
    active: Result<seq<Window>>,
    expired: Result<seq<Window>>,
    alertPages: seq<Fetch.Reply<seq<MAlert>>>,
    monthName: int -> string)
    returns (r: Section)
    ensures r.Failed? <==> active.Raised? || expired.Raised? || Fetch.OffsetFails(alertPages)
    ensures r.Section? ==>
              && r.lookup == Merged(active.value + expired.value)
              && var alerts := Fetch.OffsetFetched(alertPages);
              && r.enriched == EnrichAll(r.lookup, alerts)
              && r.months == CountMonths(map[], alerts, monthName)
              && r.newest == Newest(r.enriched)
  {
    if active.Raised? || expired.Raised? {
      return Failed;
    }
    var lookup := Merged(active.value + expired.value);
    var fetched, _ := Fetch.FetchByOffset(alertPages);
    if fetched.Raised? {
      return Failed;
    }
    var enriched := EnrichAll(lookup, fetched.value);
    r := Section(lookup, enriched, CountMonths(map[], fetched.value, monthName), Newest(enriched));
  }
}

=== FILE: outbound_errors.dfy ===
/** The outbound error correlator: for every webhook integration, split the
    entries of its log at the 24-hour threshold; recent entries are counted
    per integration name with their messages in order, duplicates kept,
    older ones are only counted. */
module OutboundErrors {
  import opened Values
  import opened Tally
  import opened Fetch
  import opened Probes

  /** A log entry: its `timestamp` and its `message` (`None` when the key is absent). */
  type LogEntry = Entry<Option<Value>>

  /** `log.get("message", "No message")`. */
  function MessageOf(message: Option<Value>): Value {
    message.GetOr(Str("No message"))
  }

  /** A recent bucket: `count` and the list of `messages`. */
  datatype Recent = Recent(count: nat, messages: seq<Value>)

  /** A recent bucket as created on a name's first recent entry. */
  const Fresh := Recent(0, [])

  /** A recent entry adds one to the count and appends its message. */
  function Note(r: Recent, message: Option<Value>): Recent {
    Recent(r.count + 1, r.messages + [MessageOf(message)])
  }

  /** `fetch_outbound_errors(integrations, epoch_now)`, the log reply of each
      integration given with it. */
  function Correlate(ps: seq<Probe<LogEntry>>, now: int): Buckets<Recent> {
    Split(ps, now, Note, Fresh)
  }

  /** The messages of the entries, in order. */
  function Messages(obs: seq<Obs<LogEntry>>): (r: seq<Value>)
    ensures |r| == |obs|
    ensures forall i :: 0 <= i < |obs| ==> r[i] == MessageOf(obs[i].entry.payload)
    decreases |obs|
  {
    if obs == [] then [] else [MessageOf(obs[0].entry.payload)] + Messages(obs[1..])
  }

  /** Noting entries one by one counts them and appends their messages in order. */
  lemma {:induction false} NoteAllMessages(r: Recent, obs: seq<Obs<LogEntry>>)
    ensures NoteAll(r, Payloads(obs), Note) == Recent(r.count + |obs|, r.messages + Messages(obs))
    decreases |obs|
  {
    if obs != [] {
      var ps := Payloads(obs);
      assert ps[0] == obs[0].entry.payload && ps[1..] == Payloads(obs[1..]);
      NoteAllMessages(Note(r, obs[0].entry.payload), obs[1..]);
      AppendAssoc(r.messages, [MessageOf(obs[0].entry.payload)], Messages(obs[1..]));
    }
  }

  /** A name is a key of the recent buckets exactly when at least one of its
      entries is recent; the bucket's messages are those entries' messages
      in order, duplicates kept, and its count is their number. */
  lemma RecentBuckets(ps: seq<Probe<LogEntry>>, now: int, n: Value)
    ensures var mine := RecentEntries(Observations(ps), n, now);
            && (n in Correlate(ps, now).recent <==> |mine| > 0)
            && (n in Correlate(ps, now).recent ==>
                  && Correlate(ps, now).recent[n] == Recent(|mine|, Messages(mine))
                  && |Correlate(ps, now).recent[n].messages| == Correlate(ps, now).recent[n].count)
  {
    var mine := RecentEntries(Observations(ps), n, now);
    SplitRecent(ps, now, n, Note, Fresh);
    NoteAllMessages(Fresh, mine);
    assert [] + Messages(mine) == Messages(mine);
  }

  /** Two recent entries with the same message keep both copies, and an
      entry without a message is listed as "No message". */
  lemma DuplicatesKept(now: int)
    ensures var e := Entry(Some(now), Some(Str("timeout")));
            var ps := [Probe(Str("hook"), Reply(Str("success"), [e, e, Entry(Some(now), None)]))];
            var recent := Correlate(ps, now).recent;
            Str("hook") in recent
            && recent[Str("hook")] == Recent(3, [Str("timeout"), Str("timeout"), Str("No message")])
  {
    var e := Entry(Some(now), Some(Str("timeout")));
    var es := [e, e, Entry(Some(now), None)];
    var ps := [Probe(Str("hook"), Reply(Str("success"), es))];
    var obs := Tagged(Str("hook"), es);
    assert Observations(ps) == obs + Observations(ps[1..]);
    assert Observations(ps) == obs;
    assert RecentEntries(obs[2..], Str("hook"), now) == [obs[2]] + RecentEntries(obs[3..], Str("hook"), now);
    assert RecentEntries(obs[1..], Str("hook"), now) == [obs[1]] + RecentEntries(obs[2..], Str("hook"), now);
    assert RecentEntries(obs, Str("hook"), now) == obs;
    RecentBuckets(ps, now, Str("hook"));
  }
}

=== FILE: outbound_integrations.dfy ===
/** The outbound integration listing: the webhook integrations of one
    endpoint, deduplicated by id. */
module OutboundIntegrations {
  import opened Values
  import opened Fetch
  import opened Integrations

  /** `fetch_outbound_integrations()` on the endpoint's reply (items read
      with `name` as their name): a failed request or a status other than
      "success" gives `total` 0 and no integrations; otherwise one entry per
      truthy id, first occurrence first, and `total` the number of entries. */
  method FetchOutboundIntegrations(reply: Reply<seq<Item>>) returns (l: Listing)
    ensures !Succeeded(reply) ==> l == Listing(0, [])
    ensures Succeeded(reply) ==> FirstOccurrences(reply.data, l.integrations)
    ensures l.total == |l.integrations|
  {
    if !Succeeded(reply) {
      return Listing(0, []);
    }
    var r := Dedup(reply.data);
    l := Listing(|r|, r);
  }
}

=== FILE: probes.dfy ===
/** What the two error correlators share: one error-log fetch per
    integration, the flat sequence of log entries the nested loops visit,
    and the loop that splits them at the 24-hour threshold into a recent
    bucket and an older count per integration name. The correlators differ
    only in what a recent bucket keeps of an entry. */
module Probes {
  import opened Values
  import opened Fetch

  /** An entry's `timestamp` (`None` when absent or null) against the threshold. */
  predicate IsRecent(timestamp: Option<int>, now: int) {
    timestamp.Some? && timestamp.value >= Threshold(now)
  }

  predicate IsOlder(timestamp: Option<int>, now: int) {
    timestamp.Some? && timestamp.value < Threshold(now)
  }

  /** An entry is recent, older, or (having no timestamp) neither. */
  lemma Trichotomy(timestamp: Option<int>, now: int)
    ensures !(IsRecent(timestamp, now) && IsOlder(timestamp, now))
    ensures IsRecent(timestamp, now) || IsOlder(timestamp, now) <==> timestamp.Some?
  {
  }

  /** The boundary is inclusive: an entry exactly 24 hours old is recent,
      one millisecond more and it is older. */
  lemma InclusiveBoundary(now: int)
    ensures IsRecent(Some(now - 86_400_000), now)
    ensures IsOlder(Some(now - 86_400_000 - 1), now)
  {
  }

  /** One integration of the input list with the reply its error-log request
      got: `Failure` when the request raised. */
  datatype Probe<E> = Probe(name: Value, reply: Reply<seq<E>>)

  /** A log entry together with the name of the integration it came from. */
  datatype Obs<E> = Obs(name: Value, entry: E)

  function Tagged<E>(name: Value, es: seq<E>): (r: seq<Obs<E>>)
    ensures |r| == |es|
    ensures forall i :: 0 <= i < |es| ==> r[i] == Obs(name, es[i])
    decreases |es|
  {
    if es == [] then [] else [Obs(name, es[0])] + Tagged(name, es[1..])
  }

  /** The entries a probe contributes: none unless its reply succeeded. */
  function Contributed<E>(p: Probe<E>): seq<Obs<E>> {
    if Succeeded(p.reply) then Tagged(p.name, p.reply.data) else []
  }

  /** The entries the inner loop visits, integration by integration. */
  function Observations<E>(ps: seq<Probe<E>>): seq<Obs<E>>
    decreases |ps|
  {
    if ps == [] then [] else Contributed(ps[0]) + Observations(ps[1..])
  }

  lemma {:induction false} ObservationsAppend<E>(a: seq<Probe<E>>, b: seq<Probe<E>>)
    ensures Observations(a + b) == Observations(a) + Observations(b)
    decreases |a|
  {
    if a == [] {
      assert a + b == b;
    } else {
      assert (a + b)[0] == a[0] && (a + b)[1..] == a[1..] + b;
      ObservationsAppend(a[1..], b);
      assert Contributed(a[0]) + (Observations(a[1..]) + Observations(b))
          == (Contributed(a[0]) + Observations(a[1..])) + Observations(b);
    }
  }

  /** A probe whose request raised or whose status is not "success" adds
      nothing, and the integrations after it are still visited. */
  lemma FailedProbeSkipped<E>(a: seq<Probe<E>>, f: Probe<E>, b: seq<Probe<E>>)
    requires !Succeeded(f.reply)
    ensures Observations(a + [f] + b) == Observations(a + b)
  {
    ObservationsAppend(a + [f], b);
    ObservationsAppend(a, [f]);
    ObservationsAppend(a, b);
    assert Observations([f]) == [] + Observations([f][1..]);
    assert Observations(a) + [] == Observations(a);
  }

  /** Every observation is an entry of a successful probe, under that probe's name. */
  lemma {:induction false} ObservationsFrom<E>(ps: seq<Probe<E>>, o: Obs<E>)
    requires o in Observations(ps)
    ensures exists i :: 0 <= i < |ps| && ps[i].name == o.name && Succeeded(ps[i].reply)
                        && o.entry in ps[i].reply.data
    decreases |ps|
  {
    if o in Contributed(ps[0]) {
      var t := Tagged(ps[0].name, ps[0].reply.data);
      var j :| 0 <= j < |t| && t[j] == o;
      assert o.entry == ps[0].reply.data[j];
    } else {
      ObservationsFrom(ps[1..], o);
      var i :| 0 <= i < |ps[1..]| && ps[1..][i].name == o.name && Succeeded(ps[1..][i].reply)
               && o.entry in ps[1..][i].reply.data;
      assert ps[i + 1] == ps[1..][i];
    }
  }

  // ---------------------------------------------------------------------
  // The split at the threshold

  /** A log entry: its `timestamp` (`None` when absent or null) and what the
      correlator keeps of it. */
  datatype Entry<P> = Entry(timestamp: Option<int>, payload: P)

  /** The recent bucket of every integration name, of the correlator's own
      kind, and the number of older entries of every name. */
  datatype Buckets<R> = Buckets(recent: map<Value, R>, older: map<Value, nat>)

  function RecentAt<R>(m: map<Value, R>, n: Value, initial: R): R {
    if n in m then m[n] else initial
  }

  function OlderAt(m: map<Value, nat>, n: Value): nat {
    if n in m then m[n] else 0
  }

  /** One iteration of the inner loop: an entry without a timestamp is
      skipped; a recent one updates its name's recent bucket (created as
      `initial`) with `note`; an older one adds one to its name's older count. */
  function Place<P, R>(b: Buckets<R>, o: Obs<Entry<P>>, now: int, note: (R, P) -> R, initial: R): Buckets<R> {
    if IsRecent(o.entry.timestamp, now) then
      Buckets(b.recent[o.name := note(RecentAt(b.recent, o.name, initial), o.entry.payload)], b.older)
    else if IsOlder(o.entry.timestamp, now) then
      Buckets(b.recent, b.older[o.name := OlderAt(b.older, o.name) + 1])
    else b
  }

  function PlaceAll<P, R>(b: Buckets<R>, obs: seq<Obs<Entry<P>>>, now: int, note: (R, P) -> R, initial: R): Buckets<R>
    decreases |obs|
  {
    if obs == [] then b else PlaceAll(Place(b, obs[0], now, note, initial), obs[1..], now, note, initial)
  }

  /** Both loops of a correlator over the integrations' replies. */
  function Split<P, R>(ps: seq<Probe<Entry<P>>>, now: int, note: (R, P) -> R, initial: R): Buckets<R> {
    PlaceAll(Buckets(map[], map[]), Observations(ps), now, note, initial)
  }

  /** The recent entries of integration name `n`, in visiting order. */
  function RecentEntries<P>(obs: seq<Obs<Entry<P>>>, n: Value, now: int): seq<Obs<Entry<P>>> {
    if obs == [] then []
    else (if obs[0].name == n && IsRecent(obs[0].entry.timestamp, now) then [obs[0]] else [])
         + RecentEntries(obs[1..], n, now)
  }

  /** How many older entries integration name `n` has. */
  function OlderCount<P>(obs: seq<Obs<Entry<P>>>, n: Value, now: int): nat {
    if obs == [] then 0
    else (if obs[0].name == n && IsOlder(obs[0].entry.timestamp, now) then 1 else 0)
         + OlderCount(obs[1..], n, now)
  }

  function Payloads<P>(obs: seq<Obs<Entry<P>>>): seq<P> {
    if obs == [] then [] else [obs[0].entry.payload] + Payloads(obs[1..])
  }

  /** `note` applied to `r` and each payload in turn. */
  function NoteAll<P, R>(r: R, ps: seq<P>, note: (R, P) -> R): R
    decreases |ps|
  {
    if ps == [] then r else NoteAll(note(r, ps[0]), ps[1..], note)
  }

  lemma {:induction false} PlaceAllRecent<P, R>(b: Buckets<R>, obs: seq<Obs<Entry<P>>>, n: Value, now: int, note: (R, P) -> R, initial: R)
    ensures var mine := RecentEntries(obs, n, now);
            var out := PlaceAll(b, obs, now, note, initial);
            && (n in out.recent <==> n in b.recent || |mine| > 0)
            && RecentAt(out.recent, n, initial) == NoteAll(RecentAt(b.recent, n, initial), Payloads(mine), note)
    decreases |obs|
  {
    if obs != [] {
      var o := obs[0];
      var rest := RecentEntries(obs[1..], n, now);
      PlaceAllRecent(Place(b, o, now, note, initial), obs[1..], n, now, note, initial);
      if o.name == n && IsRecent(o.entry.timestamp, now) {
        var mine := [o] + rest;
        assert RecentEntries(obs, n, now) == mine;
        assert mine[0] == o && mine[1..] == rest;
      } else {
        assert RecentEntries(obs, n, now) == [] + rest;
        assert [] + rest == rest;
      }
    }
  }

  lemma {:induction false} PlaceAllOlder<P, R>(b: Buckets<R>, obs: seq<Obs<Entry<P>>>, n: Value, now: int, note: (R, P) -> R, initial: R)
    ensures var out := PlaceAll(b, obs, now, note, initial);
            && (n in out.older <==> n in b.older || OlderCount(obs, n, now) > 0)
            && OlderAt(out.older, n) == OlderAt(b.older, n) + OlderCount(obs, n, now)
    decreases |obs|
  {
    if obs != [] {
      PlaceAllOlder(Place(b, obs[0], now, note, initial), obs[1..], n, now, note, initial);
    }
  }

  /** A name has a recent bucket exactly when at least one of its entries is
      recent, and the bucket is the initial one updated by those entries in
      visiting order. Integrations sharing a name share the bucket. */
  lemma SplitRecent<P, R>(ps: seq<Probe<Entry<P>>>, now: int, n: Value, note: (R, P) -> R, initial: R)
    ensures var mine := RecentEntries(Observations(ps), n, now);
            var out := Split(ps, now, note, initial);
            && (n in out.recent <==> |mine| > 0)
            && (n in out.recent ==> out.recent[n] == NoteAll(initial, Payloads(mine), note))
  {
    PlaceAllRecent(Buckets(map[], map[]), Observations(ps), n, now, note, initial);
  }

  /** A name has an older count exactly when at least one of its entries is
      older, and the count is the number of those entries. */
  lemma SplitOlder<P, R>(ps: seq<Probe<Entry<P>>>, now: int, n: Value, note: (R, P) -> R, initial: R)
    ensures var out := Split(ps, now, note, initial);
            && (n in out.older <==> OlderCount(Observations(ps), n, now) > 0)
            && (n in out.older ==> out.older[n] == OlderCount(Observations(ps), n, now))
  {
    PlaceAllOlder(Buckets(map[], map[]), Observations(ps), n, now, note, initial);
  }

  /** An integration whose fetch failed contributes nothing, and the others
      are processed as if it were not there. */
  lemma SplitSkipsFailure<P, R>(a: seq<Probe<Entry<P>>>, f: Probe<Entry<P>>, b: seq<Probe<Entry<P>>>, now: int, note: (R, P) -> R, initial: R)
    requires !Succeeded(f.reply)
    ensures Split(a + [f] + b, now, note, initial) == Split(a + b, now, note, initial)
  {
    FailedProbeSkipped(a, f, b);
  }
}

=== FILE: ranking.dfy ===
/** Python's `list.sort(key=..., reverse=True)` followed by a `[:n]` slice:
    the newest-first ordering used for the maintenance detail lines and the
    catalogue freshness check. */
module Ranking {

  /** Keys never increase from left to right. */
  predicate Descending<T>(xs: seq<T>, key: T -> int) {
    forall i, j :: 0 <= i < j < |xs| ==> key(xs[i]) >= key(xs[j])
  }

  /** Put `x` before the first element whose key is not larger than its own,
      so that among equal keys `x` stays in front, as a stable sort keeps it. */
  function Insert<T>(x: T, xs: seq<T>, key: T -> int): (r: seq<T>)
    ensures multiset(r) == multiset(xs) + multiset{x}
    ensures |r| == |xs| + 1
    decreases |xs|
  {
    if xs == [] || key(xs[0]) <= key(x) then [x] + xs
    else
      assert xs == [xs[0]] + xs[1..];
      [xs[0]] + Insert(x, xs[1..], key)
  }

  lemma {:induction false} InsertDescending<T>(x: T, xs: seq<T>, key: T -> int)
    requires Descending(xs, key)
    ensures Descending(Insert(x, xs, key), key)
    decreases |xs|
  {
    if xs == [] || key(xs[0]) <= key(x) {
      var r := [x] + xs;
      forall i, j | 0 <= i < j < |r| ensures key(r[i]) >= key(r[j]) {
        if i == 0 {
          assert r[j] == xs[j - 1];
        } else {
          assert r[i] == xs[i - 1] && r[j] == xs[j - 1];
        }
      }
    } else {
      var tail := xs[1..];
      assert Descending(tail, key) by {
        forall i, j | 0 <= i < j < |tail| ensures key(tail[i]) >= key(tail[j]) {
          assert tail[i] == xs[i + 1] && tail[j] == xs[j + 1];
        }
      }
      InsertDescending(x, tail, key);
      var t := Insert(x, tail, key);
      var r := [xs[0]] + t;
      forall j | 0 <= j < |t| ensures key(t[j]) <= key(xs[0]) {
        assert t[j] in multiset(t);
        if t[j] != x {
          assert t[j] in multiset(tail);
          var k :| 0 <= k < |tail| && tail[k] == t[j];
          assert tail[k] == xs[k + 1];
        }
      }
      forall i, j | 0 <= i < j < |r| ensures key(r[i]) >= key(r[j]) {
        if i == 0 {
          assert r[j] == t[j - 1];
        } else {
          assert r[i] == t[i - 1] && r[j] == t[j - 1];
        }
      }
    }
  }

  /** A stable descending sort by `key`, built by insertion. */
  function SortDesc<T>(xs: seq<T>, key: T -> int): (r: seq<T>)
    ensures multiset(r) == multiset(xs)
    ensures |r| == |xs|
    decreases |xs|
  {
    if xs == [] then []
    else
      assert xs == [xs[0]] + xs[1..];
      Insert(xs[0], SortDesc(xs[1..], key), key)
  }

  lemma {:induction false} SortDescDescending<T>(xs: seq<T>, key: T -> int)
    ensures Descending(SortDesc(xs, key), key)
    decreases |xs|
  {
    if xs != [] {
      SortDescDescending(xs[1..], key);
      InsertDescending(xs[0], SortDesc(xs[1..], key), key);
    }
  }

  /** The elements of `xs` whose key is `k`, in their order in `xs`. */
  function Keep<T>(xs: seq<T>, key: T -> int, k: int): seq<T>
    decreases |xs|
  {
    if xs == [] then [] else (if key(xs[0]) == k then [xs[0]] else []) + Keep(xs[1..], key, k)
  }

  /** Every element `Insert` steps over has a larger key than `x`, so among
      the elements of `x`'s key, `x` lands in front. */
  lemma {:induction false} KeepInsert<T>(x: T, xs: seq<T>, key: T -> int, k: int)
    ensures Keep(Insert(x, xs, key), key, k) == (if key(x) == k then [x] else []) + Keep(xs, key, k)
    decreases |xs|
  {
    if xs == [] || key(xs[0]) <= key(x) {
      var r := [x] + xs;
      assert r[0] == x && r[1..] == xs;
    } else {
      var t := Insert(x, xs[1..], key);
      var r := [xs[0]] + t;
      assert r[0] == xs[0] && r[1..] == t;
      KeepInsert(x, xs[1..], key, k);
      var mine := if key(x) == k then [x] else [];
      var head := if key(xs[0]) == k then [xs[0]] else [];
      assert head + (mine + Keep(xs[1..], key, k)) == mine + (head + Keep(xs[1..], key, k));
    }
  }

  /** The sort is stable: elements with equal keys keep their input order. */
  lemma {:induction false} SortDescStable<T>(xs: seq<T>, key: T -> int, k: int)
    ensures Keep(SortDesc(xs, key), key, k) == Keep(xs, key, k)
    decreases |xs|
  {
    if xs != [] {
      SortDescStable(xs[1..], key, k);
      KeepInsert(xs[0], SortDesc(xs[1..], key), key, k);
    }
  }

  /** Python's `xs[:n]`: a negative bound counts from the end. */
  function Prefix<T>(xs: seq<T>, n: int): (r: seq<T>)
    ensures n >= 0 ==> |r| == if n < |xs| then n else |xs|
    ensures n < 0 ==> |r| == if |xs| + n > 0 then |xs| + n else 0
    ensures r <= xs
  {
    if n >= 0 then (if n < |xs| then xs[..n] else xs)
    else (if |xs| + n > 0 then xs[..|xs| + n] else [])
  }

  /** The first `n` elements of the newest-first ordering: a descending run
      of elements of `xs`, and none of the elements left out has a larger
      key than any element kept. */
  lemma {:induction false} TopAreLargest<T>(xs: seq<T>, key: T -> int, n: int)
    ensures var sorted := SortDesc(xs, key);
            var top := Prefix(sorted, n);
            && Descending(top, key)
            && multiset(top) <= multiset(xs)
            && forall i, j :: 0 <= i < |top| <= j < |sorted| ==> key(sorted[j]) <= key(top[i])
  {
    var sorted := SortDesc(xs, key);
    var top := Prefix(sorted, n);
    SortDescDescending(xs, key);
    assert top == sorted[..|top|];
    forall i, j | 0 <= i < j < |top| ensures key(top[i]) >= key(top[j]) {
      assert top[i] == sorted[i] && top[j] == sorted[j];
    }
    assert sorted == top + sorted[|top|..];
    assert multiset(sorted) == multiset(top) + multiset(sorted[|top|..]);
    forall i, j | 0 <= i < |top| <= j < |sorted| ensures key(sorted[j]) <= key(top[i]) {
      assert top[i] == sorted[i];
    }
  }
}

=== FILE: tally.dfy ===
/** Totals over maps of counters, and the conversion of an internal set
    into the list a report hands on. Shared by every summariser. */
module Tally {

  /** The sum of the values of a map, in no particular key order. */
  ghost function Sum<K>(m: map<K, int>): int
    decreases |m|
  {
    if m == map[] then 0
    else
      var k :| k in m;
      m[k] + Sum(m - {k})
  }

  /** Any key may be taken out first: the sum does not depend on the order. */
  lemma {:induction false} SumRemove<K>(m: map<K, int>, k: K)
    requires k in m
    ensures Sum(m) == m[k] + Sum(m - {k})
    decreases |m|
  {
    var j :| j in m && Sum(m) == m[j] + Sum(m - {j});
    if j != k {
      assert |m - {j}| < |m|;
      SumRemove(m - {j}, k);
      SumRemove(m - {k}, j);
      assert (m - {j}) - {k} == (m - {k}) - {j};
    }
  }

  /** Setting one key changes the sum by the difference at that key. */
  lemma SumPut<K>(m: map<K, int>, k: K, v: int)
    ensures Sum(m[k := v]) == Sum(m) - (if k in m then m[k] else 0) + v
  {
    SumRemove(m[k := v], k);
    assert m[k := v] - {k} == m - {k};
    if k in m {
      SumRemove(m, k);
    } else {
      assert m - {k} == m;
    }
  }

  lemma AppendAssoc<T>(a: seq<T>, b: seq<T>, c: seq<T>)
    ensures (a + b) + c == a + (b + c)
  {
  }

  lemma UnionAssoc<T>(a: set<T>, b: set<T>, c: set<T>)
    ensures (a + b) + c == a + (b + c)
  {
  }

  /** The elements of a finite sequence are pairwise distinct. */
  predicate Distinct<T(==)>(xs: seq<T>) {
    forall i, j :: 0 <= i < j < |xs| ==> xs[i] != xs[j]
  }

  /** A sequence without repetition has as many elements as its set. */
  lemma {:induction false} DistinctCard<T>(xs: seq<T>)
    requires Distinct(xs)
    ensures |set x | x in xs| == |xs|
    decreases |xs|
  {
    if xs != [] {
      DistinctCard(xs[1..]);
      assert (set x | x in xs) == {xs[0]} + set x | x in xs[1..];
      assert xs[0] !in xs[1..];
    }
  }

  /** Python's `list(s)` on a set: every element exactly once, in an
      order the set does not fix. */
  method SetToList<T(==)>(s: set<T>) returns (r: seq<T>)
    ensures forall x :: x in r <==> x in s
    ensures Distinct(r)
    ensures |r| == |s|
  {
    r := [];
    var rest := s;
    while rest != {}
      invariant forall x :: x in s <==> x in r || x in rest
      invariant forall x :: x in r ==> x !in rest
      invariant Distinct(r)
      invariant |r| + |rest| == |s|
      decreases |rest|
    {
      var x :| x in rest;
      r := r + [x];
      rest := rest - {x};
    }
  }
}

=== FILE: values.dfy ===
/** Decoded JSON values as the monitoring API returns them, Python's
    truthiness on those values, and the blank-value rule that every
    summariser uses to decide whether a tag carries something. */
module Values {

  datatype Option<+T> = None | Some(value: T) {
    /** Python's `d.get(key, default)` once the lookup has been made. */
    function GetOr(default: T): T {
      if Some? then value else default
    }
  }

  /** The outcome of a step that may raise and let the exception propagate. */
  datatype Result<+T> = Ok(value: T) | Raised

  /** A decoded JSON value. Floats, lists and objects appear only as
      `Other`, carrying the text `str()` gives for them and their truthiness. */
  datatype Value =
    | Null
    | Str(s: string)
    | Int(n: int)
    | Bool(b: bool)
    | Other(repr: string, truthy: bool)

  /** Python's `bool(v)`. */
  predicate Truthy(v: Value) {
    match v
    case Null => false
    case Str(s) => s != ""
    case Int(n) => n != 0
    case Bool(b) => b
    case Other(_, t) => t
  }

  /** Python's `a or b`: the first operand when it is truthy, else the second. */
  function Or(a: Value, b: Value): Value {
    if Truthy(a) then a else b
  }

  /** Python's `d.get(k)` on a decoded object: `None` when the key is absent. */
  function Get(d: map<string, Value>, k: string): Value {
    if k in d then d[k] else Null
  }

  /** The characters Python's `str.strip()` removes: `str.isspace()`. */
  predicate IsSpace(c: char) {
    || ('\t' <= c <= '\r')
    || ('\U{1C}' <= c <= ' ')
    || c == '\U{85}' || c == '\U{A0}' || c == '\U{1680}'
    || ('\U{2000}' <= c <= '\U{200A}')
    || c == '\U{2028}' || c == '\U{2029}' || c == '\U{202F}'
    || c == '\U{205F}' || c == '\U{3000}'
  }

  /** How many characters at the front of `s` are whitespace. */
  function LeadingSpaces(s: string): (n: nat)
    ensures n <= |s|
  {
    if |s| > 0 && IsSpace(s[0]) then 1 + LeadingSpaces(s[1..]) else 0
  }

  lemma {:induction false} LeadingSpacesSpec(s: string)
    ensures forall k :: 0 <= k < LeadingSpaces(s) ==> IsSpace(s[k])
    ensures LeadingSpaces(s) < |s| ==> !IsSpace(s[LeadingSpaces(s)])
    decreases |s|
  {
    if |s| > 0 && IsSpace(s[0]) {
      LeadingSpacesSpec(s[1..]);
      forall k | 0 < k < LeadingSpaces(s) ensures IsSpace(s[k]) {
        assert s[k] == s[1..][k - 1];
      }
    }
  }

  /** How many characters at the back of `s` are whitespace. */
  function TrailingSpaces(s: string): (n: nat)
    ensures n <= |s|
  {
    if |s| > 0 && IsSpace(s[|s| - 1]) then 1 + TrailingSpaces(s[..|s| - 1]) else 0
  }

  lemma {:induction false} TrailingSpacesSpec(s: string)
    ensures forall k :: |s| - TrailingSpaces(s) <= k < |s| ==> IsSpace(s[k])
    ensures TrailingSpaces(s) < |s| ==> !IsSpace(s[|s| - TrailingSpaces(s) - 1])
    decreases |s|
  {
    if |s| > 0 && IsSpace(s[|s| - 1]) {
      var t := s[..|s| - 1];
      TrailingSpacesSpec(t);
      forall k | |s| - TrailingSpaces(s) <= k < |s| - 1 ensures IsSpace(s[k]) {
        assert s[k] == t[k];
      }
    }
  }

  /** Python's `s.strip()`. */
  function Strip(s: string): (r: string)
    ensures |r| <= |s|
  {
    var i := LeadingSpaces(s);
    var t := s[i..];
    t[..|t| - TrailingSpaces(t)]
  }

  /** The stripped string is the longest middle slice of `s` that neither
      starts nor ends with whitespace, everything cut off being whitespace. */
  lemma StripSpec(s: string)
    ensures exists i, j ::
              && 0 <= i <= j <= |s| && Strip(s) == s[i..j]
              && (forall k :: 0 <= k < i ==> IsSpace(s[k]))
              && (forall k :: j <= k < |s| ==> IsSpace(s[k]))
    ensures Strip(s) != [] ==> !IsSpace(Strip(s)[0]) && !IsSpace(Strip(s)[|Strip(s)| - 1])
  {
    var i := LeadingSpaces(s);
    var t := s[i..];
    var j := i + |t| - TrailingSpaces(t);
    LeadingSpacesSpec(s);
    TrailingSpacesSpec(t);
    assert t[..|t| - TrailingSpaces(t)] == s[i..j];
    forall k | j <= k < |s| ensures IsSpace(s[k]) {
      assert s[k] == t[k - i];
    }
    if i < j {
      assert Strip(s)[0] == s[i];
      assert Strip(s)[|Strip(s)| - 1] == t[|t| - TrailingSpaces(t) - 1];
    }
  }

  /** Every character of `s` is whitespace. */
  predicate AllSpace(s: string)
    decreases |s|
  {
    |s| == 0 || (IsSpace(s[0]) && AllSpace(s[1..]))
  }

  lemma {:induction false} AllSpaceAt(s: string)
    ensures AllSpace(s) <==> forall k :: 0 <= k < |s| ==> IsSpace(s[k])
    decreases |s|
  {
    if |s| > 0 {
      AllSpaceAt(s[1..]);
      assert forall k :: 0 < k < |s| ==> s[k] == s[1..][k - 1];
    }
  }

  /** The blank-value rule: `None`, or a string made only of whitespace. */
  predicate IsBlank(v: Value) {
    v == Null || (v.Str? && AllSpace(v.s))
  }

  /** The rule as the incident summariser states it: `None`, or a string
      that `strip()` leaves empty. Nothing else, however falsy, is blank. */
  lemma BlankIsStripEmpty(v: Value)
    ensures IsBlank(v) <==> v == Null || (v.Str? && Strip(v.s) == "")
  {
    if v.Str? {
      var s := v.s;
      var r := Strip(s);
      StripSpec(s);
      AllSpaceAt(s);
      var i, j :| 0 <= i <= j <= |s| && r == s[i..j]
        && (forall k :: 0 <= k < i ==> IsSpace(s[k]))
        && (forall k :: j <= k < |s| ==> IsSpace(s[k]));
      if r == "" {
        forall k | 0 <= k < |s| ensures IsSpace(s[k]) {
          if i <= k < j {
            assert false;
          }
        }
      } else {
        assert r[0] == s[i] && !IsSpace(s[i]);
      }
    }
  }

  /** `"0"`, `0` and `False` are falsy but not blank; `None`, `""` and a
      run of spaces are blank, the last although it is truthy. */
  lemma BlankIsNotFalsy()
    ensures !IsBlank(Str("0")) && !IsBlank(Int(0)) && !IsBlank(Bool(false))
    ensures !Truthy(Int(0)) && !Truthy(Bool(false))
    ensures IsBlank(Null) && IsBlank(Str("")) && IsBlank(Str("   "))
    ensures Truthy(Str("   "))
  {
    AllSpaceAt("   ");
  }

  /** Python's `pat in s` on two strings. */
  predicate Contains(s: string, pat: string)
    decreases |s|
  {
    pat <= s || (|s| > 0 && Contains(s[1..], pat))
  }

  /** `pat` occurs in `s` starting at offset `i`. */
  predicate OccursAt(s: string, pat: string, i: int) {
    0 <= i <= |s| - |pat| && s[i..i + |pat|] == pat
  }

  /** The substring test holds exactly when `pat` occurs at some offset of `s`. */
  lemma {:induction false} ContainsAt(s: string, pat: string)
    ensures Contains(s, pat) <==> exists i :: OccursAt(s, pat, i)
    decreases |s|
  {
    if pat <= s {
      assert OccursAt(s, pat, 0);
    } else if |s| > 0 {
      ContainsAt(s[1..], pat);
      if Contains(s[1..], pat) {
        var i :| OccursAt(s[1..], pat, i);
        assert s[1..][i..i + |pat|] == s[i + 1..i + 1 + |pat|];
        assert OccursAt(s, pat, i + 1);
      }
      if exists i :: OccursAt(s, pat, i) {
        var i :| OccursAt(s, pat, i);
        if i == 0 {
          assert false;
        }
        assert s[1..][i - 1..i - 1 + |pat|] == s[i..i + |pat|];
        assert OccursAt(s[1..], pat, i - 1);
      }
    }
  }

  /** An occurrence at any offset is found by the substring test. */
  lemma {:induction false} ContainsFrom(s: string, pat: string, i: nat)
    requires i <= |s| && pat <= s[i..]
    ensures Contains(s, pat)
    decreases i
  {
    if i > 0 {
      assert s[1..][i - 1..] == s[i..];
      ContainsFrom(s[1..], pat, i - 1);
    }
  }

  function DigitChar(d: nat): char
    requires d < 10
  {
    "0123456789"[d]
  }

  function Decimal(n: nat): string
  {
    if n < 10 then [DigitChar(n)] else Decimal(n / 10) + [DigitChar(n % 10)]
  }

  /** Python's `str(v)` for the values the model distinguishes. */
  function Render(v: Value): string {
    match v
    case Null => "None"
    case Str(s) => s
    case Int(n) => if n < 0 then "-" + Decimal(-n) else Decimal(n)
    case Bool(b) => if b then "True" else "False"
    case Other(repr, _) => repr
  }
}
